=== FILE: README.md ===
# MedLink backend: appointment bookkeeping and its satellites, in Dafny

This project models the request handlers of the MedLink healthcare backend
that carry logic of their own. Every handler becomes a pure function.
Each one takes the state it reads and the request fields. Each one returns
`Transition(result, next)`: the reply and the state left behind.

The document store becomes in-memory maps keyed by document id.
Third-party services become inputs:
- PayPal's two replies;
- OpenFDA's reply;
- the file storage's upload and destroy;
- the email validator;
- JWT verification;
- the server's calendar.

A handler fails in one of two ways. The model keeps them apart:
- `Rejected(status, message)`: the handler's own early return, with its literal message;
- `Threw(status)`: an exception (a `null` dereference, a failed save, a failed
  HTTP call) that the handler's `catch` answers.

Status 200 stands for `res.json` without `.status`.

Modules, following the source layout:

- `Outcomes`: the reply shapes and JavaScript string truthiness.
- `Text`: the JavaScript string and array built-ins the handlers use:
  `split`, `join`, `indexOf`, `lastIndexOf`, `slice` (with negative indices)
  and ASCII `toLowerCase`.
- `SlotRegistry`: a doctor's `slots_booked`. It is a map from date to the times
  booked on it. The module holds the reserve step of booking and the
  `filter` step of cancelling.
- `ClinicModel`: patients, doctors, appointments and their three flags. It
  also holds the cancel tail that both cancel paths share.
- `UserController`: registration checks, booking and the patient's own cancel.
- `AdminController`: the `addDoctor` input checks and the unconditional cancel.
- `AdminDashboard`: the dashboard, covering:
  - the six-month trend window;
  - the status label;
  - the five most recent appointments.
- `DoctorController`: the availability toggle, the profile update and
  "mark completed".
- `PaypalController`: payment verification.
- `Lifecycle`: every state-changing appointment handler as one action type.
  It proves properties that hold across all of them:
  - flags only switch on;
  - appointments are never deleted;
  - slot lists stay free of duplicate times;
  - booking followed by cancelling frees the slot.
- `OrderController`: order creation and the two status transitions.
- `MedicineController`: pagination, lookup by id, and the OpenFDA details
  with their memo cache and description fallback.
- `AuthUser`: the patient-token middleware, namely token extraction and the
  `req.user` it sets.
- `UserRoute`: the medical-record routes, covering:
  - the resource type chosen from the file extension;
  - the storage public id derived from a stored URL;
  - upload, delete and rename with owner checks.

## Model

| member | source | states |
|---|---|---|
| SlotRegistry.Reserve | controllers/userController.js:193-205 | Booking a time fails exactly when it is already listed for the date. Otherwise the time is appended: other dates keep their lists, earlier times keep their order, and a date with no entry gets the one-element list. |
| SlotRegistry.Release | controllers/userController.js:259-260 | The cancel `filter` fails (throws) exactly when the date has no entry. Otherwise the time is free afterwards, the set of dates is unchanged, and every other date keeps its list. |
| SlotRegistry.RemoveAll | controllers/userController.js:260 | The filter keeps exactly the elements other than the time. |
| SlotRegistry.RemoveAllCounts | controllers/userController.js:260 | The filter removes every occurrence of the time and keeps every other time with its multiplicity. |
| SlotRegistry.RemoveAllConcat | controllers/userController.js:260 | Filtering distributes over concatenation, so the other times keep their relative order. |
| SlotRegistry.RemoveAllAbsent | controllers/userController.js:260 | Filtering out a time that is not listed changes nothing. |
| SlotRegistry.RemoveAllNoDuplicates | controllers/userController.js:260 | Filtering never introduces a duplicate time. |
| SlotRegistry.ReserveThenRelease | controllers/userController.js:255-261 | Releasing a time just reserved restores the registry. The one exception: a date that had no entry keeps an empty list. |
| SlotRegistry.ReleaseIdempotent | controllers/userController.js:260 | Releasing the same time twice is the same as releasing it once. |
| SlotRegistry.ReservePreservesWellFormed | controllers/userController.js:196-205 | Booking never lists a time twice on a date. |
| SlotRegistry.ReleasePreservesWellFormed | controllers/userController.js:259-260 | Cancelling never lists a time twice on a date. |
| ClinicModel.CancelAndRelease | controllers/userController.js:255-262 | `cancel` is set first, and it stays set even when the handler then fails. The handler fails (throws) exactly when the doctor or the date's entry is missing, and then the slots are untouched. On success the time is free and only that doctor's registry changes. |
| UserController.RegisterUser | controllers/userController.js:39-81 | The checks run in the source's order, each with its message: missing field, invalid email, password shorter than 8, email already taken. Success adds exactly one account and nothing else. |
| UserController.RegisterKeepsEmailsUnique | controllers/userController.js:57-61 | Registration keeps email addresses unique across accounts. |
| UserController.BookAppointment | controllers/userController.js:183-229 | An unknown doctor throws (500). An unavailable doctor or a taken slot is refused. Every failure leaves the store unchanged. On success: the appointment carries `amount = fees`, the requested doctor, date and time, the doctor snapshot and the patient record (or none); exactly one appointment is added; and only this doctor's registry gains the time, on this date alone. |
| UserController.CancelAppointment | controllers/userController.js:247-267 | An unknown id throws. A caller who is not the appointment's patient is refused and nothing changes. For the owner the handler is exactly the shared cancel-and-release step (`ClinicModel.CancelAndRelease`). Only `cancel` and that doctor's date entry change, and the entry loses only this time. Success happens exactly when the doctor and the date entry exist, and then the slot is free. |
| AdminController.AddDoctorChecks | controllers/adminController.js:26-56 | Any missing field or image gives 400. Then an invalid email, then a password shorter than 6, each with its message. The checks pass exactly when all three hold. |
| AdminController.FirstFailure | controllers/adminController.js:26-56 | A chain of early returns passes exactly when every check holds. Otherwise it answers with the reply of a failing check that has only passing checks before it. |
| AdminController.AddDoctorChecksInOrder | controllers/adminController.js:26-56 | addDoctor's checks are that chain of three, in source order. When several fail, the first one picks the reply. |
| AdminController.AppointmentCancel | controllers/adminController.js:129-146 | No ownership check is made. An unknown id throws and changes nothing. Any existing appointment gets `cancel`. For an existing id the handler is exactly the shared cancel-and-release step (`ClinicModel.CancelAndRelease`), so on success only that doctor's date entry loses the time and nothing else changes. |
| AdminDashboard.WindowEntry | controllers/adminController.js:158-159 | The bucket month `(m - 5 + i + 12) % 12` lies in 0..11. With the borrowed year, bucket `i` is exactly `5 - i` months before the current month. |
| AdminDashboard.Window | controllers/adminController.js:157-159 | There are exactly six buckets and the last one is the current month. Consecutive buckets are consecutive calendar months, and no month appears twice. |
| AdminDashboard.CountIn | controllers/adminController.js:160-163 | A bucket's count never exceeds the number of appointments. It is zero exactly when no appointment falls in that month. |
| AdminDashboard.Trends | controllers/adminController.js:157-165 | Six entries. Entry `i` is named after its bucket's month and counts that month's appointments. |
| AdminDashboard.TrendsTotal | controllers/adminController.js:157-165 | The six counts add up to exactly the number of appointments in the window, so no appointment is counted twice and the total is at most the number of appointments. |
| AdminDashboard.Status | controllers/adminController.js:185 | "Cancelled" exactly when cancelled. Otherwise "Completed" exactly when completed. "Upcoming" otherwise. |
| AdminDashboard.StatusMonotone | controllers/adminController.js:185 | Flags never switch back off. Therefore "Cancelled" is final and no appointment returns to "Upcoming". |
| AdminDashboard.Insert | controllers/adminController.js:175 | One insertion step adds exactly that appointment and loses none. The result starts with it or with the old head. |
| AdminDashboard.InsertKeepsOrder | controllers/adminController.js:175 | Inserting into a newest-first list keeps it newest-first. |
| AdminDashboard.SortNewestFirst | controllers/adminController.js:175 | The sorted list is a permutation of the appointments. |
| AdminDashboard.SortIsNewestFirst | controllers/adminController.js:175 | The sorted list has dates in non-increasing order. |
| AdminDashboard.ActivityOf | controllers/adminController.js:177-187 | The doctor name falls back to "Dr." plus the doctor id, so it is never empty. The patient name falls back to the patient id. A missing image is `null`. The status is the derived label. The slot, amount and date are copied. |
| AdminDashboard.ActivityFollowsFlags | controllers/adminController.js:177-187 | A row follows the flag writes: paying leaves it unchanged, cancelling changes only its status to "Cancelled", and completing an appointment that is not cancelled changes only its status to "Completed". |
| AdminDashboard.RecentActivity | controllers/adminController.js:174-187 | At most five rows: the first `min(5, n)` of the sorted list. |
| AdminDashboard.RecentAreNewest | controllers/adminController.js:174-176 | Rows come newest first and each comes from a real appointment. No appointment left out is newer than the last row. |
| AdminDashboard.RecentInDateOrder | controllers/adminController.js:174-176 | The recent rows come in non-increasing date order. |
| AdminDashboard.NothingNewerLeftOut | controllers/adminController.js:174-176 | Every appointment is either among the first five sorted ones or no newer than the last of them. |
| AdminDashboard.Dashboard | controllers/adminController.js:148-198 | The three totals, the pie slices, the trends and the recent activity. The trend counts add up to at most the appointment total. |
| DoctorController.ChangeAvailability | controllers/doctorController.js:6-17 | `available` becomes the negation of its prior value. No other field or doctor changes. An unknown id throws and changes nothing. |
| DoctorController.ToggleTwiceRestores | controllers/doctorController.js:10 | Toggling twice restores the store. |
| DoctorController.UpdateDoctorProfile | controllers/doctorController.js:27-38 | A missing `docId` is refused before any update, and an unknown one gives "Doctor not found". On success each field present in the body replaces the stored one and each absent field stays. |
| DoctorController.EmptyUpdateChangesNothing | controllers/doctorController.js:29-31 | A request body with no field besides `docId` leaves the store as it was. |
| DoctorController.UpdateTwiceIsUpdateOnce | controllers/doctorController.js:29-33 | Sending the same update twice gives the same reply and store as sending it once. |
| DoctorController.MarkAppointmentCompleted | controllers/doctorController.js:83-95 | An unknown id gives "Appointment not found". An already-completed appointment gives "Already completed" and nothing changes. Otherwise only `isCompleted` becomes true, with `cancel` neither consulted nor changed. |
| DoctorController.CompleteTwiceRefused | controllers/doctorController.js:88 | A second completion is refused and changes nothing. |
| PaypalController.VerifyPayPalPayment | controllers/paypalController.js:7-52 | Missing ids give 400. A missing access token gives 500. A status other than COMPLETED gives 400. A failed call gives 500. Every failure changes nothing. Success happens exactly when PayPal confirms the order, and then only `payment` is written, whatever the other flags say. An unknown appointment id still succeeds. |
| PaypalController.VerifyIdempotent | controllers/paypalController.js:46 | Repeating a successful verification changes nothing further. |
| Lifecycle.ApplyGrowsLedger | controllers/userController.js:183-267 | No handler deletes an appointment or switches a flag back off. This covers booking, which only adds an appointment (userController.js:183-229), and the flag writes of the patient cancel (userController.js:255), the admin cancel (adminController.js:134), completion (doctorController.js:89) and payment (paypalController.js:46). |
| Lifecycle.RunGrowsLedger | controllers/userController.js:247-267 | Over any sequence of requests, appointments persist and their flags only switch on. This combines the cancel, completion and payment writes over time. |
| Lifecycle.ApplyKeepsRegistriesWellFormed | controllers/userController.js:193-205 | Booking and both cancels keep every doctor's registry free of duplicate times. A profile update that writes `slots_booked` directly is the only handler that can break this. |
| Lifecycle.BookThenCancelFreesSlot | controllers/userController.js:247-267 | Book, then cancel as the same patient. The cancel succeeds, the slot is free again, and the doctor is as before except for an emptied date entry. |
| Lifecycle.AdminCancelSkipsOwnership | controllers/adminController.js:129-146 | The admin cancel equals the patient cancel performed as the appointment's own patient. |
| Lifecycle.CancelDoesNotBlockCompletionOrPayment | controllers/doctorController.js:86-90 | A cancelled appointment can still be completed. A confirmed payment still marks it paid. |
| OrderController.CreateOrder | controllers/orderController.js:6-39 | An absent or unknown user gives 404 with no order created. On success one order is added with `paymentStatus` "pending", no payment id, the user's name and email, and the request's fields. |
| OrderController.UpdatePaymentStatus | controllers/orderController.js:42-65 | An unknown order gives 404 and nothing changes. Otherwise `paymentStatus` and `paymentId` take the given values. `status` becomes "processing" exactly when the status is "completed" and is kept otherwise. No other order changes. |
| OrderController.UpdatePaymentStatusIdempotent | controllers/orderController.js:51-56 | Recording the same payment update twice equals recording it once. |
| OrderController.UpdateOrderStatus | controllers/orderController.js:95-112 | An unknown order gives 404. Otherwise only `status` changes. |
| OrderController.UpdateOrderStatusIdempotent | controllers/orderController.js:104-105 | Setting the same status twice gives the same reply and orders as setting it once. |
| OrderController.CreateThenCompletePayment | controllers/orderController.js:6-65 | A new order for a known user starts "pending". After a "completed" payment update it is "processing", carries the payment id and still belongs to that user. Existing orders are untouched throughout. |
| OrderController.CreateOrderAsRoutedAlwaysNotFound | controllers/orderController.js:9-15 | Behind the user-token middleware `req.user._id` is undefined, so the handler answers 404 for every caller and creates nothing. |
| OrderController.CreateOrderForRequestUser | controllers/orderController.js:9-28 | Reading the id the middleware does set, creation succeeds exactly for a known user. The order belongs to that user and starts "pending". |
| MedicineController.OrDefault | controllers/medicineController.js:34-35 | With a non-zero default (1 for page, 100 for limit) the value used is never 0, so the later division is defined. It is the parsed value or the default, and every non-zero parse, negative ones included, is kept. |
| MedicineController.CeilDiv | controllers/medicineController.js:47 | `Math.ceil(a / b)` is the least integer `r` with `a <= r * b`, for positive `b`. For negative `b` it is the mirror case. |
| MedicineController.PageShape | controllers/medicineController.js:38-40 | For page and limit at least 1, the page is the catalogue window `[(page-1)*limit, min(page*limit, n))`. It holds at most `limit` items. |
| MedicineController.GetMedicines | controllers/medicineController.js:32-52 | The reply echoes the effective page and limit. `totalItems` is the catalogue length. `data` is the window. `totalPages` is the ceiling of length over limit for every limit, negative ones included. |
| MedicineController.PagesAfterLastAreEmpty | controllers/medicineController.js:38-47 | Every page after `totalPages` is empty. |
| MedicineController.PagesArePrefix | controllers/medicineController.js:38-40 | Pages 1 to k laid end to end are the first `min(k * limit, n)` medicines. |
| MedicineController.PagesCoverCatalogue | controllers/medicineController.js:38-47 | Reading pages 1 to `totalPages` in turn reproduces the whole catalogue, in order. |
| MedicineController.FirstWithId | controllers/medicineController.js:57 | `find`: the position of the first medicine with the id, or none. |
| MedicineController.GetMedicineById | controllers/medicineController.js:54-67 | The first medicine with that id, or 404 exactly when none has it. |
| MedicineController.Describe | controllers/medicineController.js:101 | The description falls back from the label's first description, to the local description, to "No description available". It is never empty. |
| MedicineController.SearchTerm | controllers/medicineController.js:81 | The search term is the name's first space-separated word: a space-free prefix of the name that ends at a space or at the end. |
| MedicineController.GetMedicineOnline | controllers/medicineController.js:70-111 | A cached id is answered from the cache, which stays as it was. An unknown id gives 404. For an uncached id, success happens exactly when the id is known and OpenFDA answers 2xx or 404. A failed call or any other error reply throws (500). Success caches and returns the details built from the first label (or none). |
| MedicineController.OnlineDetailsMemoised | controllers/medicineController.js:72-74 | Once details are produced for an id, a later call returns the same details without consulting OpenFDA, and the cache is unchanged. |
| AuthUser.ExtractToken | middleware/authUser.js:5-9 | A non-empty `token` header wins. When it is missing or empty, an `Authorization` header that starts with "Bearer " supplies the first space-separated field after that prefix, which may be empty. Any other request yields no token. |
| AuthUser.BearerRoundTrip | middleware/authUser.js:7-9 | With a missing or empty `token` header, "Bearer " followed by a space-free token, optionally followed by a space and more, yields exactly that token. So "Bearer " alone or followed by a second space yields none. |
| AuthUser.Authenticate | middleware/authUser.js:3-29 | No token gives 401. Failed verification gives 401. Otherwise `req.user` carries the decoded id, and the decoded email or `null` when that is missing or empty. |
| AuthUser.TokenHeadersAgree | middleware/authUser.js:5-20 | A space-free token is accepted the same way from the `token` header and from "Bearer " plus the token, and exactly when it verifies. The request then carries the token's id. |
| UserRoute.ExtName | routes/userRoute.js:30 | `path.extname` starts with its only '.' and is a proper suffix of the last path component. It is empty exactly when that component has no '.', has its only '.' first (a dot-file), or is "..". |
| UserRoute.ExtNameOfFile | routes/userRoute.js:30 | A file `stem.x`, with a non-empty stem and a non-empty, dot-free `x`, alone or under any directory, has the extension `.x`. |
| UserRoute.ResourceTypeOfListedFile | routes/userRoute.js:29-37 | A file named by a stem plus a listed extension, alone or under any directory, is "image" for an image extension and "raw" for a document extension. |
| UserRoute.GetResourceType | routes/userRoute.js:29-37 | The image list is consulted first. "image" exactly for the six image extensions, "raw" exactly for the five document extensions, "auto" for anything else. Each comparison is made after lower-casing. |
| UserRoute.ExtensionListsDisjoint | routes/userRoute.js:31-32 | No extension is in both lists, so the classification is well defined. |
| UserRoute.ExtNameCommutesWithLower | routes/userRoute.js:30 | Lower-casing a file name lower-cases its extension, and changes nothing else about which part is the extension. |
| UserRoute.ResourceTypeIgnoresCase | routes/userRoute.js:30 | The resource type does not depend on the case of the file name. |
| UserRoute.StripExtension | routes/userRoute.js:105 | Removing `/\.[^.]+$/` leaves a prefix of the string. When something is removed, it is the last '.' with a non-empty suffix. Nothing is removed exactly when there is no '.' or the string ends in '.'. |
| UserRoute.StripExtensionOf | routes/userRoute.js:105 | `stem.ext` with a dot-free, non-empty `ext` loses exactly `.ext`. |
| UserRoute.PublicId | routes/userRoute.js:104-105 | The public id is the segments from the first "medical-records" on, joined by '/', with the extension removed. Without such a segment only the last segment is kept. |
| UserRoute.PublicIdOfStoredFile | routes/userRoute.js:104-105 | Consider a URL of host segments, then "medical-records", then `name.ext`. Its public id is "medical-records/name". |
| UserRoute.UploadMedicalRecord | routes/userRoute.js:44-81 | An absent or empty file gives 400 and nothing is stored. Success happens exactly when the storage upload with the file's resource type succeeds. The new record belongs to the caller, with the original name and the returned URL. |
| UserRoute.DeleteMedicalRecord | routes/userRoute.js:96-112 | A missing record gives 404. A record owned by someone else gives 403. Either way nothing changes. Otherwise the object under the URL's public id is destroyed (as a raw resource) and only that record is removed. |
| UserRoute.RenameMedicalRecord | routes/userRoute.js:115-130 | An empty name gives 400, a missing record gives 404, another owner's record gives 403, and each leaves the records unchanged. Otherwise only `filename` changes. |
| UserRoute.UploadThenDeleteRestores | routes/userRoute.js:96-112 | Upload a record, then delete it as its owner. The delete succeeds exactly when storage destroys the object, and then the records are as before the upload. |
| UserRoute.RenameIdempotent | routes/userRoute.js:124-126 | Renaming twice to the same name changes nothing the second time. |
| Text.SplitJoin | routes/userRoute.js:104-105 | Splitting a '/'-join of separator-free segments gives the segments back. |
| Text.JoinSplit | routes/userRoute.js:104-105 | Joining the fields of a split gives the string back. |
| Text.JsSlice | controllers/medicineController.js:40 | `slice` clamps its indices to the sequence and counts negative ones from the end. |

## Left out

- Persistence is sequential in-memory maps. The race between two concurrent bookings of one slot is a concurrency property this model cannot express.
- bcrypt hashing, `jwt.sign` and `jwt.verify`, the email validator, the storage service, PayPal and OpenFDA are inputs or oracles. Registration returns the new account id instead of a signed token.
- The document store's cast errors for malformed ids, and schema validation, are not modelled. Ids are plain strings.
- The user, appointment, doctor and order schemas are not part of this model. Their defaults are parameters: the initial appointment flags, the order's initial `status`, and the user's default `image`, which registerUser never sets.
- Every doctor is assumed to have a `slots_booked` object, as a schema default of `{}` would give. A doctor stored without one would make booking and both cancels throw, and the model does not cover that.
- Keys from the request that name `Object.prototype` members ("constructor", "toString", "hasOwnProperty", "__proto__" and the like) are assumed not to occur. The model treats a date key in `slots_booked` (userController.js:196-197 and 260, adminController.js:139) and a medicine id in the OpenFDA cache (medicineController.js:72) as plain map keys. In the source such a key finds the inherited member: booking answers 500, both cancels throw, and a medicine id would be a spurious cache hit.
- addDoctor's persistence (hashing, image upload, save) is not modelled. `AdminController.AddDoctorChecks` covers the checks before it.
- The one-shot JSON file read of the medicine catalogue is not modelled. The catalogue is a parameter, and a failed read (500) is left out.
- `MedicineController.GetMedicineOnline`: models the cache as intended. routes/medicineRoutes.js:8 registers the method unbound, so under module strict mode `this` is undefined when the handler runs and reading the cache throws.
- `MedicineController.SearchTerm`: `encodeURIComponent` is not modelled. The term is the first word as is.
- `new Date(ms)` converted to month and year in the server's time zone is the `calendar` input. `now` is given as its month and year.
- `AdminDashboard.SortNewestFirst`: states order and permutation but not stability (equal dates keep their input order).
- `AdminDashboard.Dashboard`: the failure of a `find({})` call is not modelled, and the three collections are given as lists.
- JavaScript numbers are modelled as unbounded integers. Fees, amounts, page numbers and limits are integers. Float results of `/` other than the `Math.ceil` one are not reached, and string lengths count characters, not UTF-16 units.
- `Text.Lower`: lower-cases ASCII letters only, while `toLowerCase` applies the full Unicode case mapping. Two non-ASCII characters lower-case into ASCII. KELVIN SIGN becomes 'k', which appears in no listed extension. LATIN CAPITAL LETTER I WITH DOT ABOVE becomes 'i' followed by COMBINING DOT ABOVE, and that two-character result matches no listed extension either. So the classification is unaffected.
- The login handlers (userController.js:84-107, doctorController.js:39-60, adminController.js:93-107) are not modelled. Each compares a password, with bcrypt or against the configured admin credentials, and then signs a token. Both steps are oracles here.
- `updateUserProfile` (userController.js:123-180) is not modelled. After its required-field check it parses the address as JSON (400 on failure), uploads the image to the storage service, and answers 404 when no user is updated. JSON parsing and the upload lie outside this model.
- The list and read handlers (doctor list, appointment lists, order lists, record list, profile reads) are not modelled. Each is a single store query, with at most a not-found reply.
- `sendAppointmentReminder` (doctorController.js:98-106) is not modelled. It sends nothing and always answers success.
- The upload route's `file.buffer` check is modelled through the file size: an absent buffer and a zero size are the same case.

## Findings

| source | as written | input that shows it | evidently intended | confidence | as-written member | corrected member |
|---|---|---|---|---|---|---|
| controllers/orderController.js:9-15 | createOrder reads `req.user._id`. The user-token middleware in front of it (routes/orderRoutes.js:9, middleware/authUser.js:17-20) sets only `id` and `email`, so `User.findById(undefined)` finds nobody. | Any authenticated POST to the orders route with a known user: the reply is 404 "User not found". | Read `req.user.id`, so a known user can create an order. | not executed | OrderController.CreateOrderAsRouted, OrderController.CreateOrderAsRoutedAlwaysNotFound | OrderController.CreateOrderForRequestUser |

=== FILE: admin_controller.dfy ===
/** The administrator handlers of controllers/adminController.js that carry
    logic: the input checks of addDoctor and the unconditional cancel. The
    dashboard arithmetic is in module AdminDashboard. */
module AdminController {
  import opened Outcomes
  import opened SlotRegistry
  import opened ClinicModel

  const ALL_FIELDS_REQUIRED := "All fields are required"
  const INVALID_DOCTOR_EMAIL := "Please enter a valid email address"
  const SHORT_DOCTOR_PASSWORD := "Please enter a password with at least 6 characters"
  const MIN_DOCTOR_PASSWORD_LENGTH := 6

  /** The multipart form fields of addDoctor; every field arrives as a string. */
  datatype DoctorForm = DoctorForm(
    name: string,
    email: string,
    password: string,
    specialization: string,
    degree: string,
    experience: string,
    about: string,
    fees: string,
    address: string)

  predicate AllFieldsPresent(f: DoctorForm, hasImage: bool) {
    && Truthy(f.name) && Truthy(f.email) && Truthy(f.password)
    && Truthy(f.specialization) && Truthy(f.degree) && Truthy(f.experience)
    && Truthy(f.about) && Truthy(f.fees) && Truthy(f.address) && hasImage
  }

  /** The checks addDoctor makes before hashing, uploading or saving anything,
      in the order it makes them. `isEmail` is the email validator. */
  function AddDoctorChecks(f: DoctorForm, hasImage: bool, isEmail: string -> bool): (r: Result<()>)
    ensures r.Ok? <==>
      AllFieldsPresent(f, hasImage) && isEmail(f.email) && |f.password| >= MIN_DOCTOR_PASSWORD_LENGTH
    ensures !AllFieldsPresent(f, hasImage) ==> r == Err(Rejected(400, ALL_FIELDS_REQUIRED))
    ensures AllFieldsPresent(f, hasImage) && !isEmail(f.email) ==>
      r == Err(Rejected(200, INVALID_DOCTOR_EMAIL))
    ensures AllFieldsPresent(f, hasImage) && isEmail(f.email) && |f.password| < MIN_DOCTOR_PASSWORD_LENGTH ==>
      r == Err(Rejected(200, SHORT_DOCTOR_PASSWORD))
  {
    if !(Truthy(f.name) && Truthy(f.email) && Truthy(f.password) && Truthy(f.specialization)
         && Truthy(f.degree) && Truthy(f.experience) && Truthy(f.about) && Truthy(f.fees)
         && Truthy(f.address) && hasImage)
    then Err(Rejected(400, ALL_FIELDS_REQUIRED))
    else if !isEmail(f.email) then Err(Rejected(200, INVALID_DOCTOR_EMAIL))
    else if |f.password| < MIN_DOCTOR_PASSWORD_LENGTH then Err(Rejected(200, SHORT_DOCTOR_PASSWORD))
    else Ok(())
  }

  /** A reference reading of a chain of early returns: each check is a
      condition and the reply sent when it fails; the first failing check
      answers, and the request passes only when every check holds. */
  function FirstFailure(checks: seq<(bool, Failure)>): (r: Result<()>)
    ensures r.Ok? <==> forall i :: 0 <= i < |checks| ==> checks[i].0
    ensures r.Err? ==>
      exists i :: 0 <= i < |checks| && !checks[i].0 && checks[i].1 == r.failure && (forall j :: 0 <= j < i ==> checks[j].0)
    decreases |checks|
  {
    if |checks| == 0 then Ok(())
    else if !checks[0].0 then Err(checks[0].1)
    else
      var r := FirstFailure(checks[1..]);
      assert forall i :: 1 <= i < |checks| ==> checks[i] == checks[1..][i - 1];
      if r.Err? then
        var k :| 0 <= k < |checks[1..]| && !checks[1..][k].0 && checks[1..][k].1 == r.failure
          && (forall j :: 0 <= j < k ==> checks[1..][j].0);
        assert !checks[k + 1].0 && checks[k + 1].1 == r.failure;
        r
      else r
  }

  /** addDoctor's checks are the three early returns in source order: the
      first one that fails picks the reply, whatever the later ones say. */
  lemma AddDoctorChecksInOrder(f: DoctorForm, hasImage: bool, isEmail: string -> bool)
    ensures AddDoctorChecks(f, hasImage, isEmail) == FirstFailure([
      (AllFieldsPresent(f, hasImage), Rejected(400, ALL_FIELDS_REQUIRED)),
      (isEmail(f.email), Rejected(200, INVALID_DOCTOR_EMAIL)),
      (|f.password| >= MIN_DOCTOR_PASSWORD_LENGTH, Rejected(200, SHORT_DOCTOR_PASSWORD))])
  {
    var checks := [
      (AllFieldsPresent(f, hasImage), Rejected(400, ALL_FIELDS_REQUIRED)),
      (isEmail(f.email), Rejected(200, INVALID_DOCTOR_EMAIL)),
      (|f.password| >= MIN_DOCTOR_PASSWORD_LENGTH, Rejected(200, SHORT_DOCTOR_PASSWORD))];
    var c1 := checks[1..];
    var c2 := c1[1..];
    assert c2[1..] == [];
    assert FirstFailure(c2) == if !c2[0].0 then Err(c2[0].1) else FirstFailure(c2[1..]);
    assert FirstFailure(c1) == if !c1[0].0 then Err(c1[0].1) else FirstFailure(c2);
    assert FirstFailure(checks) == if !checks[0].0 then Err(checks[0].1) else FirstFailure(c1);
  }

  /** appointmentCancel: no ownership check. For an unknown id the flag
      update matches nothing and reading the missing record throws. */
  function AppointmentCancel(c: Store, appointmentId: string): (t: Transition<(), Store>)
    ensures appointmentId !in c.appointments ==> t == Transition(Err(Threw(200)), c)
    ensures appointmentId in c.appointments ==>
      && appointmentId in t.next.appointments
      && t.next.appointments[appointmentId].flags.cancel
      && t.next.users == c.users
    ensures t.result.Ok? <==>
      && appointmentId in c.appointments
      && var a := c.appointments[appointmentId];
      && a.docId in c.doctors && a.slotDate in c.doctors[a.docId].slotsBooked
    ensures t.result.Ok? ==>
      var a := c.appointments[appointmentId];
      var before := c.doctors[a.docId].slotsBooked;
      && a.docId in t.next.doctors
      && var after := t.next.doctors[a.docId].slotsBooked;
      && IsSlotFree(after, a.slotDate, a.slotTime)
      && after.Keys == before.Keys
      && (forall d :: d in before && d != a.slotDate ==> after[d] == before[d])
      && t.next.doctors.Keys == c.doctors.Keys
      && (forall d :: d in c.doctors && d != a.docId ==> t.next.doctors[d] == c.doctors[d])
    ensures appointmentId in c.appointments ==> t == CancelAndRelease(c, appointmentId)
  {
    if appointmentId !in c.appointments then Transition(Err(Threw(200)), c)
    else CancelAndRelease(c, appointmentId)
  }
}

=== FILE: auth_user.dfy ===
/** The patient-token middleware (middleware/authUser.js): where the token
    is taken from, and what the request carries on success. Signature
    checking is an oracle `verify` that yields the decoded claims, or `None`
    when verification throws. */
module AuthUser {
  import opened Outcomes
  import opened Text

  const NO_TOKEN := "Not Authorized: No token provided"
  const INVALID_TOKEN := "Invalid or expired token"
  const BEARER := "Bearer "

  /** The two request headers the middleware reads. */
  datatype Headers = Headers(token: Option<string>, authorization: Option<string>)

  /** The decoded token payload. */
  datatype Claims = Claims(id: Option<string>, email: Option<string>)

  /** `req.user` as the middleware sets it: an `id` and an `email` property. */
  datatype RequestUser = RequestUser(id: Option<string>, email: Option<string>)

  /** The token the middleware uses; the empty string stands for "none".
      The `token` header wins when it is non-empty; otherwise an
      `Authorization` header starting with "Bearer " supplies the second
      space-separated field. */
  function ExtractToken(h: Headers): (tok: string)
    ensures Truthy(OrEmpty(h.token)) ==> tok == h.token.value
    ensures Truthy(tok) && !Truthy(OrEmpty(h.token)) ==>
      && h.authorization.Some? && StartsWith(h.authorization.value, BEARER)
      && var rest := h.authorization.value[|BEARER|..];
      && ' ' !in tok && StartsWith(rest, tok)
      && (|rest| == |tok| || rest[|tok|] == ' ')
    ensures !Truthy(OrEmpty(h.token)) && h.authorization.Some? && StartsWith(h.authorization.value, BEARER) ==>
      tok == Split(h.authorization.value[|BEARER|..], ' ')[0]
    ensures !Truthy(OrEmpty(h.token)) && !(h.authorization.Some? && StartsWith(h.authorization.value, BEARER)) ==>
      tok == ""
  {
    var header := OrEmpty(h.token);
    if Truthy(header) then header
    else if h.authorization.Some? && StartsWith(h.authorization.value, BEARER) then
      var a := h.authorization.value;
      var rest := a[|BEARER|..];
      assert a == "Bearer" + [' '] + rest;
      SplitAround("Bearer", ' ', rest);
      SplitWithoutSeparator("Bearer", ' ');
      FirstField(rest, ' ');
      assert Split(a, ' ') == ["Bearer"] + Split(rest, ' ');
      Split(a, ' ')[1]
    else ""
  }

  /** "Bearer " followed by a space-free token, and optionally by a space and
      anything else, yields exactly that token. With an empty token this says
      that "Bearer " alone, or "Bearer " followed by a second space, yields none.
      This holds whenever the `token` header is missing or empty. */
  lemma BearerRoundTrip(token: Option<string>, t: string, extra: Option<string>)
    requires !Truthy(OrEmpty(token))
    requires ' ' !in t
    ensures var a := if extra.Some? then BEARER + t + " " + extra.value else BEARER + t;
      ExtractToken(Headers(token, Some(a))) == t
  {
    if extra.Some? {
      var rest := t + " " + extra.value;
      assert BEARER + t + " " + extra.value == BEARER + rest;
      BearerField(token, rest);
      assert rest == t + [' '] + extra.value;
      SplitAround(t, ' ', extra.value);
      SplitWithoutSeparator(t, ' ');
    } else {
      BearerField(token, t);
      SplitWithoutSeparator(t, ' ');
    }
  }

  /** Behind "Bearer " the token is the first space-separated field, whenever
      the `token` header is missing or empty. */
  lemma BearerField(token: Option<string>, rest: string)
    requires !Truthy(OrEmpty(token))
    ensures ExtractToken(Headers(token, Some(BEARER + rest))) == Split(rest, ' ')[0]
  {
    var a := BEARER + rest;
    assert StartsWith(a, BEARER) by {
      assert a[..|BEARER|] == BEARER;
    }
    SplitAfterBearer(rest);
  }

  lemma SplitAfterBearer(rest: string)
    ensures Split(BEARER + rest, ' ') == ["Bearer"] + Split(rest, ' ')
  {
    assert BEARER + rest == "Bearer" + [' '] + rest;
    SplitAround("Bearer", ' ', rest);
    SplitWithoutSeparator("Bearer", ' ');
  }

  /** The middleware: 401 without a token or when verification fails;
      otherwise `next` runs with the decoded id and the decoded email, or
      `null` when the email is missing or empty. */
  function Authenticate(h: Headers, verify: string -> Option<Claims>): (r: Result<RequestUser>)
    ensures !Truthy(ExtractToken(h)) ==> r == Err(Rejected(401, NO_TOKEN))
    ensures Truthy(ExtractToken(h)) && verify(ExtractToken(h)).None? ==> r == Err(Rejected(401, INVALID_TOKEN))
    ensures r.Ok? <==> Truthy(ExtractToken(h)) && verify(ExtractToken(h)).Some?
    ensures r.Ok? ==>
      var claims := verify(ExtractToken(h)).value;
      && r.value.id == claims.id
      && (r.value.email.Some? <==> Truthy(OrEmpty(claims.email)))
      && (r.value.email.Some? ==> r.value.email == claims.email)
  {
    var tok := ExtractToken(h);
    if !Truthy(tok) then Err(Rejected(401, NO_TOKEN))
    else match verify(tok)
      case None => Err(Rejected(401, INVALID_TOKEN))
      case Some(claims) =>
        var email := OrEmpty(claims.email);
        Ok(RequestUser(claims.id, if Truthy(email) then Some(email) else None))
  }

  /** A space-free token is accepted the same way from either header, and
      exactly when it verifies; the request then carries the token's id. */
  lemma TokenHeadersAgree(tok: string, verify: string -> Option<Claims>)
    requires Truthy(tok) && ' ' !in tok
    ensures var viaHeader := Authenticate(Headers(Some(tok), None), verify);
      && viaHeader == Authenticate(Headers(None, Some(BEARER + tok)), verify)
      && (viaHeader.Ok? <==> verify(tok).Some?)
      && (viaHeader.Ok? ==> viaHeader.value.id == verify(tok).value.id)
  {
    BearerRoundTrip(None, tok, None);
  }
}

=== FILE: clinic.dfy ===
/** The records the appointment handlers read and write, with the document
    store replaced by in-memory maps keyed by document id. */
module ClinicModel {
  import opened Outcomes
  import opened SlotRegistry

  /** A patient account, as far as the handlers read it. */
  datatype Patient = Patient(name: string, email: string, image: string)

  /** A doctor account. `available` gates booking; `slotsBooked` is the slot registry. */
  datatype Doctor = Doctor(
    name: string,
    email: string,
    image: string,
    fees: int,
    available: bool,
    slotsBooked: Slots)

  /** The copy of a doctor embedded in an appointment at booking time,
      reduced to the fields the handlers read from it. Later edits to the
      doctor do not reach it. */
  datatype DoctorSnapshot = DoctorSnapshot(
    name: string,
    email: string,
    image: string,
    fees: int,
    available: bool)

  /** The three independent appointment flags. */
  datatype Flags = Flags(cancel: bool, isCompleted: bool, payment: bool)

  datatype Appointment = Appointment(
    userId: string,
    docId: string,
    userData: Option<Patient>,   // `None` when the patient record was not found
    docData: DoctorSnapshot,
    amount: int,
    slotDate: string,
    slotTime: string,
    date: int,                   // booking time stamp, in milliseconds
    flags: Flags)

  /** The three collections the appointment handlers touch. */
  datatype Store = Store(
    doctors: map<string, Doctor>,
    users: map<string, Patient>,
    appointments: map<string, Appointment>)

  function Snapshot(d: Doctor): (s: DoctorSnapshot)
    ensures s.name == d.name && s.email == d.email && s.image == d.image
    ensures s.fees == d.fees && s.available == d.available
  {
    DoctorSnapshot(d.name, d.email, d.image, d.fees, d.available)
  }

  /** `findById` on the users collection: the record, or `null`. */
  function FindUser(users: map<string, Patient>, id: string): (r: Option<Patient>)
    ensures r.Some? <==> id in users
    ensures r.Some? ==> r.value == users[id]
  {
    if id in users then Some(users[id]) else None
  }

  /** No flag is ever switched back from true to false. */
  predicate FlagsGrow(a: Flags, b: Flags) {
    (a.cancel ==> b.cancel) && (a.isCompleted ==> b.isCompleted) && (a.payment ==> b.payment)
  }

  /** Appointments are never deleted and their flags only grow. */
  predicate LedgerGrows(c: Store, c': Store) {
    forall id :: id in c.appointments ==>
      id in c'.appointments && FlagsGrow(c.appointments[id].flags, c'.appointments[id].flags)
  }

  /** Every doctor's registry lists each time at most once per date. */
  predicate RegistriesWellFormed(c: Store) {
    forall id :: id in c.doctors ==> WellFormed(c.doctors[id].slotsBooked)
  }

  /** The tail shared by both cancel paths: `cancel: true` is written first,
      then the doctor named on the appointment is read and the appointment's
      time is filtered out of its date's list. A missing doctor or a date
      without an entry throws after the flag has been written, so the handler
      fails but the appointment stays cancelled and the slot stays booked. */
  function CancelAndRelease(c: Store, id: string): (t: Transition<(), Store>)
    requires id in c.appointments
    ensures var a := c.appointments[id];
      t.next.appointments == c.appointments[id := a.(flags := a.flags.(cancel := true))]
    ensures t.next.users == c.users
    ensures var a := c.appointments[id];
      t.result.Ok? <==> a.docId in c.doctors && a.slotDate in c.doctors[a.docId].slotsBooked
    ensures t.result.Err? ==> t.result.failure == Threw(200) && t.next.doctors == c.doctors
    ensures var a := c.appointments[id];
      t.result.Ok? ==>
        && t.next.doctors.Keys == c.doctors.Keys
        && (forall d :: d in c.doctors && d != a.docId ==> t.next.doctors[d] == c.doctors[d])
        && IsSlotFree(t.next.doctors[a.docId].slotsBooked, a.slotDate, a.slotTime)
        && Some(t.next.doctors[a.docId].slotsBooked)
           == Release(c.doctors[a.docId].slotsBooked, a.slotDate, a.slotTime)
        && t.next.doctors[a.docId] == c.doctors[a.docId].(slotsBooked := t.next.doctors[a.docId].slotsBooked)
  {
    var a := c.appointments[id];
    var marked := c.(appointments := c.appointments[id := a.(flags := a.flags.(cancel := true))]);
    if a.docId !in c.doctors then Transition(Err(Threw(200)), marked)
    else
      var doc := c.doctors[a.docId];
      match Release(doc.slotsBooked, a.slotDate, a.slotTime)
      case None => Transition(Err(Threw(200)), marked)
      case Some(slots) =>
        Transition(Ok(()), marked.(doctors := c.doctors[a.docId := doc.(slotsBooked := slots)]))
  }
}

=== FILE: dashboard.dfy ===
/** The admin dashboard of controllers/adminController.js: the six-month
    window of appointment counts, the status label of an appointment, and
    the five most recent appointments. The conversion of a time stamp to a
    calendar month in the server's time zone is an input (`calendar`). */
module AdminDashboard {
  import opened Outcomes
  import opened ClinicModel
  import Text

  const MONTHS: seq<string> :=
    ["Jan", "Feb", "Mar", "Apr", "May", "Jun", "Jul", "Aug", "Sep", "Oct", "Nov", "Dec"]

  /** A calendar month as `Date` reports it: `getFullYear()` and the
      zero-based `getMonth()`. */
  datatype YearMonth = YearMonth(year: int, month: int)

  predicate ValidMonth(ym: YearMonth) {
    0 <= ym.month < 12
  }

  /** Months counted from January of year 0, so that consecutive calendar
      months have consecutive ordinals. */
  function Ordinal(ym: YearMonth): int {
    ym.year * 12 + ym.month
  }

  /** The `i`-th month of the window as the handler computes it, from the
      month and year of `now` with `(month - 5 + i + 12) % 12` and a year
      borrowed when `month - 5 + i` is negative. */
  function WindowEntry(now: YearMonth, i: int): (ym: YearMonth)
    requires ValidMonth(now) && 0 <= i < 6
    ensures ValidMonth(ym)
    ensures Ordinal(ym) == Ordinal(now) - 5 + i
  {
    var m := now.month - 5 + i;
    YearMonth(now.year - (if m < 0 then 1 else 0), (m + 12) % 12)
  }

  /** The six months of the trend chart: the five months before `now`'s and
      `now`'s own, oldest first. */
  function Window(now: YearMonth): (w: seq<YearMonth>)
    requires ValidMonth(now)
    ensures |w| == 6 && w[5] == now
    ensures forall i :: 0 <= i < 6 ==> ValidMonth(w[i]) && Ordinal(w[i]) == Ordinal(now) - 5 + i
    ensures forall i, j :: 0 <= i < j < 6 ==> w[i] != w[j]
  {
    seq(6, i requires 0 <= i < 6 => WindowEntry(now, i))
  }

  /** `appointments.filter(...)`: the appointments whose time stamp falls in `ym`. */
  function CountIn(apps: seq<Appointment>, ym: YearMonth, calendar: int -> YearMonth): (n: nat)
    ensures n <= |apps|
    ensures n == 0 <==> forall k :: 0 <= k < |apps| ==> calendar(apps[k].date) != ym
  {
    if apps == [] then 0
    else (if calendar(apps[0].date) == ym then 1 else 0) + CountIn(apps[1..], ym, calendar)
  }

  /** How many appointments fall in any of the months of `w`. */
  function CountInAny(apps: seq<Appointment>, w: seq<YearMonth>, calendar: int -> YearMonth): (n: nat)
    ensures n <= |apps|
  {
    if apps == [] then 0
    else (if calendar(apps[0].date) in w then 1 else 0) + CountInAny(apps[1..], w, calendar)
  }

  datatype Trend = Trend(name: string, appointments: nat)

  /** `appointmentTrends`: per window month, its short name and the number
      of appointments booked in it. */
  function Trends(apps: seq<Appointment>, now: YearMonth, calendar: int -> YearMonth): (r: seq<Trend>)
    requires ValidMonth(now)
    ensures |r| == 6
    ensures forall i :: 0 <= i < 6 ==>
      var ym := WindowEntry(now, i);
      r[i] == Trend(MONTHS[ym.month], CountIn(apps, ym, calendar))
  {
    var w := Window(now);
    seq(6, i requires 0 <= i < 6 => Trend(MONTHS[w[i].month], CountIn(apps, w[i], calendar)))
  }

  function SumTrends(t: seq<Trend>): (n: nat)
  {
    if t == [] then 0 else t[0].appointments + SumTrends(t[1..])
  }

  function SumCounts(apps: seq<Appointment>, w: seq<YearMonth>, calendar: int -> YearMonth): (n: nat)
  {
    if w == [] then 0 else CountIn(apps, w[0], calendar) + SumCounts(apps, w[1..], calendar)
  }

  /** Splitting off the first month of `w`. */
  lemma {:induction false} CountInAnyCons(apps: seq<Appointment>, w: seq<YearMonth>, calendar: int -> YearMonth)
    requires |w| > 0 && w[0] !in w[1..]
    ensures CountInAny(apps, w, calendar) == CountIn(apps, w[0], calendar) + CountInAny(apps, w[1..], calendar)
    decreases |apps|
  {
    if apps != [] {
      CountInAnyCons(apps[1..], w, calendar);
      var m := calendar(apps[0].date);
      assert m in w <==> m == w[0] || m in w[1..] by {
        assert w == [w[0]] + w[1..];
      }
    }
  }

  /** With distinct months, the per-month counts add up to the number of
      appointments in the whole window: no appointment is counted twice. */
  lemma {:induction false} SumCountsIsCountInAny(apps: seq<Appointment>, w: seq<YearMonth>, calendar: int -> YearMonth)
    requires forall i, j :: 0 <= i < j < |w| ==> w[i] != w[j]
    ensures SumCounts(apps, w, calendar) == CountInAny(apps, w, calendar)
    decreases |w|
  {
    if w == [] {
      CountInAnyEmpty(apps, calendar);
    } else {
      assert w[0] !in w[1..] by {
        forall j | 0 <= j < |w[1..]| ensures w[1..][j] != w[0] {
          assert w[1..][j] == w[j + 1];
        }
      }
      CountInAnyCons(apps, w, calendar);
      SumCountsIsCountInAny(apps, w[1..], calendar);
    }
  }

  lemma {:induction false} CountInAnyEmpty(apps: seq<Appointment>, calendar: int -> YearMonth)
    ensures CountInAny(apps, [], calendar) == 0
    decreases |apps|
  {
    if apps != [] {
      CountInAnyEmpty(apps[1..], calendar);
    }
  }

  lemma {:induction false} SumTrendsIsSumCounts(apps: seq<Appointment>, now: YearMonth, calendar: int -> YearMonth, k: nat)
    requires ValidMonth(now) && k <= 6
    ensures SumTrends(Trends(apps, now, calendar)[k..]) == SumCounts(apps, Window(now)[k..], calendar)
    decreases 6 - k
  {
    var t := Trends(apps, now, calendar);
    var w := Window(now);
    if k < 6 {
      SumTrendsIsSumCounts(apps, now, calendar, k + 1);
      assert t[k..][1..] == t[k + 1..];
      assert w[k..][1..] == w[k + 1..];
    } else {
      assert t[k..] == [];
      assert w[k..] == [];
    }
  }

  /** The six bars of the trend chart together count exactly the
      appointments booked in the window, hence never more than there are. */
  lemma TrendsTotal(apps: seq<Appointment>, now: YearMonth, calendar: int -> YearMonth)
    requires ValidMonth(now)
    ensures SumTrends(Trends(apps, now, calendar)) == CountInAny(apps, Window(now), calendar)
    ensures SumTrends(Trends(apps, now, calendar)) <= |apps|
  {
    SumTrendsIsSumCounts(apps, now, calendar, 0);
    assert Trends(apps, now, calendar)[0..] == Trends(apps, now, calendar);
    assert Window(now)[0..] == Window(now);
    SumCountsIsCountInAny(apps, Window(now), calendar);
  }

  /** The status label: a cancelled appointment reads "Cancelled" whatever
      its other flags, a completed one "Completed", any other "Upcoming". */
  function Status(f: Flags): (s: string)
    ensures s == "Cancelled" <==> f.cancel
    ensures s == "Completed" <==> !f.cancel && f.isCompleted
    ensures s == "Upcoming" <==> !f.cancel && !f.isCompleted
  {
    if f.cancel then "Cancelled" else if f.isCompleted then "Completed" else "Upcoming"
  }

  /** Because flags are never cleared, an appointment that has left
      "Upcoming" never reads "Upcoming" again, and a cancelled one stays
      "Cancelled". */
  lemma StatusMonotone(a: Flags, b: Flags)
    requires FlagsGrow(a, b)
    ensures Status(a) != "Upcoming" ==> Status(b) != "Upcoming"
    ensures Status(a) == "Cancelled" ==> Status(b) == "Cancelled"
  {
  }

  /** Dates never increase from left to right: newest first. */
  predicate NewestFirst(s: seq<Appointment>) {
    forall i, j :: 0 <= i < j < |s| ==> s[i].date >= s[j].date
  }

  /** Inserting `a` in front of the first entry that is not newer than it. */
  function Insert(a: Appointment, s: seq<Appointment>): (r: seq<Appointment>)
    ensures multiset(r) == multiset(s) + multiset{a}
    ensures |r| == |s| + 1
    ensures r[0] == a || (s != [] && r[0] == s[0])
  {
    if s == [] || s[0].date <= a.date then [a] + s
    else
      assert s == [s[0]] + s[1..];
      [s[0]] + Insert(a, s[1..])
  }

  lemma NewestFirstTail(s: seq<Appointment>)
    requires NewestFirst(s) && s != []
    ensures NewestFirst(s[1..])
  {
    forall i, j | 0 <= i < j < |s[1..]| ensures s[1..][i].date >= s[1..][j].date {
      assert s[1..][i] == s[i + 1] && s[1..][j] == s[j + 1];
    }
  }

  /** Prepending an entry at least as new as the head keeps a list newest-first. */
  lemma NewestFirstCons(x: Appointment, s: seq<Appointment>)
    requires NewestFirst(s)
    requires s == [] || x.date >= s[0].date
    ensures NewestFirst([x] + s)
  {
    var r := [x] + s;
    forall i, j | 0 <= i < j < |r| ensures r[i].date >= r[j].date {
      assert r[j] == s[j - 1];
      if i > 0 {
        assert r[i] == s[i - 1];
      } else if j > 1 {
        assert s[0].date >= s[j - 1].date;
      }
    }
  }

  /** Insertion keeps a newest-first list newest-first. */
  lemma {:induction false} InsertKeepsOrder(a: Appointment, s: seq<Appointment>)
    requires NewestFirst(s)
    ensures NewestFirst(Insert(a, s))
    decreases |s|
  {
    if s == [] || s[0].date <= a.date {
      NewestFirstCons(a, s);
    } else {
      NewestFirstTail(s);
      InsertKeepsOrder(a, s[1..]);
      var rest := Insert(a, s[1..]);
      assert s[0].date >= rest[0].date by {
        if rest[0] != a {
          assert rest[0] == s[1..][0] == s[1];
        }
      }
      NewestFirstCons(s[0], rest);
    }
  }

  /** `appointments.sort((a, b) => b.date - a.date)` by insertion: the same
      appointments as before. */
  function SortNewestFirst(s: seq<Appointment>): (r: seq<Appointment>)
    ensures multiset(r) == multiset(s)
    ensures |r| == |s|
  {
    if s == [] then []
    else
      assert s == [s[0]] + s[1..];
      Insert(s[0], SortNewestFirst(s[1..]))
  }

  /** The sort puts the newest appointment first. */
  lemma {:induction false} SortIsNewestFirst(s: seq<Appointment>)
    ensures NewestFirst(SortNewestFirst(s))
    decreases |s|
  {
    if s != [] {
      SortIsNewestFirst(s[1..]);
      InsertKeepsOrder(s[0], SortNewestFirst(s[1..]));
    }
  }

  /** One row of the recent-activity table. An image the record lacks is `None`. */
  datatype Activity = Activity(
    doctorName: string,
    doctorImage: Option<string>,
    patientName: string,
    patientImage: Option<string>,
    slotDate: string,
    slotTime: string,
    amount: int,
    status: string,
    date: int)

  /** `s || null` for a string: `None` when it is empty. */
  function NonEmpty(s: string): (r: Option<string>)
    ensures r.Some? <==> Truthy(s)
    ensures r.Some? ==> r.value == s
  {
    if Truthy(s) then Some(s) else None
  }

  /** The row shown for an appointment: the names fall back to "Dr." and the
      doctor id, and to the patient id, when the embedded copy has no name. */
  function ActivityOf(a: Appointment): (r: Activity)
    ensures r.doctorName == (if Truthy(a.docData.name) then a.docData.name else "Dr." + a.docId)
    ensures Truthy(r.doctorName)
    ensures r.patientName == (if a.userData.Some? && Truthy(a.userData.value.name) then a.userData.value.name else a.userId)
    ensures r.doctorImage == NonEmpty(a.docData.image)
    ensures r.patientImage == (if a.userData.Some? then NonEmpty(a.userData.value.image) else None)
    ensures r.status == Status(a.flags)
    ensures r.slotDate == a.slotDate && r.slotTime == a.slotTime && r.amount == a.amount && r.date == a.date
  {
    var patientName := if a.userData.Some? && Truthy(a.userData.value.name) then a.userData.value.name else a.userId;
    var patientImage := if a.userData.Some? then NonEmpty(a.userData.value.image) else None;
    Activity(
      if Truthy(a.docData.name) then a.docData.name else "Dr." + a.docId,
      NonEmpty(a.docData.image),
      patientName,
      patientImage,
      a.slotDate, a.slotTime, a.amount, Status(a.flags), a.date)
  }

  /** A row tracks the flag writes: paying leaves it as it was, cancelling
      changes only its status to "Cancelled", and completing an appointment
      that is not cancelled changes only its status to "Completed". */
  lemma ActivityFollowsFlags(a: Appointment)
    ensures ActivityOf(a.(flags := a.flags.(payment := true))) == ActivityOf(a)
    ensures ActivityOf(a.(flags := a.flags.(cancel := true))) == ActivityOf(a).(status := "Cancelled")
    ensures !a.flags.cancel ==>
      ActivityOf(a.(flags := a.flags.(isCompleted := true))) == ActivityOf(a).(status := "Completed")
  {
  }

  /** The five newest appointments, newest first, as activity rows. */
  function RecentActivity(apps: seq<Appointment>): (r: seq<Activity>)
    ensures |r| == Text.Min(5, |apps|)
    ensures forall i :: 0 <= i < |r| ==> r[i] == ActivityOf(SortNewestFirst(apps)[i])
  {
    var sorted := SortNewestFirst(apps);
    seq(Text.Min(5, |apps|), i requires 0 <= i < Text.Min(5, |apps|) => ActivityOf(sorted[i]))
  }

  /** The rows shown are the newest: they are in date order, each comes from
      a listed appointment, and every appointment not among the shown ones
      is no newer than the last row. */
  lemma RecentAreNewest(apps: seq<Appointment>)
    ensures var r := RecentActivity(apps);
      forall i, j :: 0 <= i < j < |r| ==> r[i].date >= r[j].date
    ensures var sorted := SortNewestFirst(apps);
      forall i :: 0 <= i < Text.Min(5, |apps|) ==> sorted[i] in apps
    ensures var sorted := SortNewestFirst(apps);
      var k := Text.Min(5, |apps|);
      forall a :: a in apps ==> a in sorted[..k] || a.date <= sorted[k - 1].date
  {
    RecentInDateOrder(apps);
    RecentFromListed(apps);
    NothingNewerLeftOut(apps);
  }

  lemma RecentInDateOrder(apps: seq<Appointment>)
    ensures var r := RecentActivity(apps);
      forall i, j :: 0 <= i < j < |r| ==> r[i].date >= r[j].date
  {
    var sorted := SortNewestFirst(apps);
    var r := RecentActivity(apps);
    SortIsNewestFirst(apps);
    forall i, j | 0 <= i < j < |r| ensures r[i].date >= r[j].date {
      assert r[i].date == sorted[i].date && r[j].date == sorted[j].date;
    }
  }

  lemma RecentFromListed(apps: seq<Appointment>)
    ensures var sorted := SortNewestFirst(apps);
      forall i :: 0 <= i < Text.Min(5, |apps|) ==> sorted[i] in apps
  {
    var sorted := SortNewestFirst(apps);
    forall i | 0 <= i < Text.Min(5, |apps|) ensures sorted[i] in apps {
      assert sorted[i] in multiset(sorted);
    }
  }

  lemma NothingNewerLeftOut(apps: seq<Appointment>)
    ensures var sorted := SortNewestFirst(apps);
      var k := Text.Min(5, |apps|);
      forall a :: a in apps ==> a in sorted[..k] || a.date <= sorted[k - 1].date
  {
    var sorted := SortNewestFirst(apps);
    var k := Text.Min(5, |apps|);
    SortIsNewestFirst(apps);
    forall a | a in apps ensures a in sorted[..k] || a.date <= sorted[k - 1].date {
      assert a in multiset(apps);
      assert a in sorted;
      var j :| 0 <= j < |sorted| && sorted[j] == a;
      if j < k {
        assert sorted[..k][j] == a;
      } else {
        assert sorted[k - 1].date >= sorted[j].date;
      }
    }
  }

  /** The pie chart's two slices. */
  datatype Slice = Slice(name: string, value: nat)

  datatype DashData = DashData(
    doctors: nat,
    appointments: nat,
    patients: nat,
    appointmentTrends: seq<Trend>,
    userDistribution: seq<Slice>,
    recentActivity: seq<Activity>)

  /** adminDashboard over the three collections as `find({})` lists them. */
  function Dashboard(
    doctors: seq<Doctor>, users: seq<Patient>, apps: seq<Appointment>,
    now: YearMonth, calendar: int -> YearMonth
  ): (d: DashData)
    requires ValidMonth(now)
    ensures d.doctors == |doctors| && d.patients == |users| && d.appointments == |apps|
    ensures d.userDistribution == [Slice("Doctors", |doctors|), Slice("Patients", |users|)]
    ensures d.appointmentTrends == Trends(apps, now, calendar)
    ensures d.recentActivity == RecentActivity(apps)
    ensures SumTrends(d.appointmentTrends) <= d.appointments
    ensures |d.recentActivity| <= 5 && |d.recentActivity| <= d.appointments
  {
    TrendsTotal(apps, now, calendar);
    DashData(
      |doctors|, |apps|, |users|,
      Trends(apps, now, calendar),
      [Slice("Doctors", |doctors|), Slice("Patients", |users|)],
      RecentActivity(apps))
  }
}

=== FILE: doctor_controller.dfy ===
/** The handlers of controllers/doctorController.js that change state: the
    availability toggle, the profile update and "mark completed". */
module DoctorController {
  import opened Outcomes
  import opened SlotRegistry
  import opened ClinicModel

  const DOCTOR_ID_REQUIRED := "Doctor ID is required"
  const DOCTOR_NOT_FOUND := "Doctor not found"
  const APPOINTMENT_NOT_FOUND := "Appointment not found"
  const ALREADY_COMPLETED := "Already completed"

  /** changeAvailability: writes the negation of the value it read. An
      unknown id makes it read a field of `null` (a caught exception). */
  function ChangeAvailability(c: Store, docId: string): (t: Transition<(), Store>)
    ensures docId !in c.doctors ==> t == Transition(Err(Threw(200)), c)
    ensures docId in c.doctors ==>
      && t.result.Ok?
      && t.next.doctors.Keys == c.doctors.Keys
      && t.next.doctors[docId].available == !c.doctors[docId].available
      && t.next.doctors[docId] == c.doctors[docId].(available := t.next.doctors[docId].available)
    ensures forall d :: d in c.doctors && d != docId ==> d in t.next.doctors && t.next.doctors[d] == c.doctors[d]
    ensures t.next.appointments == c.appointments && t.next.users == c.users
  {
    if docId !in c.doctors then Transition(Err(Threw(200)), c)
    else
      var doc := c.doctors[docId];
      Transition(Ok(()), c.(doctors := c.doctors[docId := doc.(available := !doc.available)]))
  }

  /** Toggling twice gives back the store as it was. */
  lemma ToggleTwiceRestores(c: Store, docId: string)
    ensures ChangeAvailability(ChangeAvailability(c, docId).next, docId).next == c
  {
    if docId in c.doctors {
      var c1 := ChangeAvailability(c, docId).next;
      var c2 := ChangeAvailability(c1, docId).next;
      assert c2.doctors[docId] == c.doctors[docId];
      assert c2.doctors == c.doctors;
    }
  }

  /** The fields present in an update request body. The handler passes every
      field except `docId` straight to the store, so a request may overwrite
      `available` and even `slots_booked`. */
  datatype DoctorPatch = DoctorPatch(
    name: Option<string>,
    email: Option<string>,
    image: Option<string>,
    fees: Option<int>,
    available: Option<bool>,
    slotsBooked: Option<Slots>)

  /** One field of the partial update. */
  function Patched<T>(current: T, update: Option<T>): (r: T)
    ensures r == current || update == Some(r)
    ensures update.Some? ==> r == update.value
  {
    match update
    case Some(v) => v
    case None => current
  }

  /** The store's partial update: present fields replace, absent fields stay. */
  function ApplyPatch(d: Doctor, p: DoctorPatch): Doctor {
    Doctor(Patched(d.name, p.name), Patched(d.email, p.email), Patched(d.image, p.image),
           Patched(d.fees, p.fees), Patched(d.available, p.available),
           Patched(d.slotsBooked, p.slotsBooked))
  }

  /** updateDoctorProfile: a missing `docId` is refused before the store is
      touched; an unknown one matches nothing. Success returns the updated record. */
  function UpdateDoctorProfile(c: Store, docId: string, p: DoctorPatch): (t: Transition<Doctor, Store>)
    ensures !Truthy(docId) ==> t == Transition(Err(Rejected(200, DOCTOR_ID_REQUIRED)), c)
    ensures Truthy(docId) && docId !in c.doctors ==> t == Transition(Err(Rejected(200, DOCTOR_NOT_FOUND)), c)
    ensures t.result.Ok? <==> Truthy(docId) && docId in c.doctors
    ensures t.result.Ok? ==>
      var before, after := c.doctors[docId], t.result.value;
      && t.next.doctors == c.doctors[docId := after]
      && (p.name.Some? ==> after.name == p.name.value) && (p.name.None? ==> after.name == before.name)
      && (p.email.Some? ==> after.email == p.email.value) && (p.email.None? ==> after.email == before.email)
      && (p.image.Some? ==> after.image == p.image.value) && (p.image.None? ==> after.image == before.image)
      && (p.fees.Some? ==> after.fees == p.fees.value) && (p.fees.None? ==> after.fees == before.fees)
      && (p.available.Some? ==> after.available == p.available.value)
      && (p.available.None? ==> after.available == before.available)
      && (p.slotsBooked.Some? ==> after.slotsBooked == p.slotsBooked.value)
      && (p.slotsBooked.None? ==> after.slotsBooked == before.slotsBooked)
    ensures t.next.appointments == c.appointments && t.next.users == c.users
  {
    if !Truthy(docId) then Transition(Err(Rejected(200, DOCTOR_ID_REQUIRED)), c)
    else if docId !in c.doctors then Transition(Err(Rejected(200, DOCTOR_NOT_FOUND)), c)
    else
      var updated := ApplyPatch(c.doctors[docId], p);
      Transition(Ok(updated), c.(doctors := c.doctors[docId := updated]))
  }

  /** The empty request body: every field absent. */
  const NO_CHANGE := DoctorPatch(None, None, None, None, None, None)

  /** An update without fields leaves the store as it was. */
  lemma EmptyUpdateChangesNothing(c: Store, docId: string)
    ensures UpdateDoctorProfile(c, docId, NO_CHANGE).next == c
  {
    if Truthy(docId) && docId in c.doctors {
      assert ApplyPatch(c.doctors[docId], NO_CHANGE) == c.doctors[docId];
      assert c.doctors[docId := c.doctors[docId]] == c.doctors;
    }
  }

  /** Sending the same update twice is the same as sending it once. */
  lemma UpdateTwiceIsUpdateOnce(c: Store, docId: string, p: DoctorPatch)
    ensures var once := UpdateDoctorProfile(c, docId, p);
      UpdateDoctorProfile(once.next, docId, p) == once
  {
    var once := UpdateDoctorProfile(c, docId, p);
    if Truthy(docId) && docId in c.doctors {
      var d := once.result.value;
      assert ApplyPatch(d, p) == d;
      assert once.next.doctors[docId := d] == once.next.doctors;
    }
  }

  /** markAppointmentCompleted: guarded only by `isCompleted`; `cancel` and
      `payment` are neither consulted nor changed. */
  function MarkAppointmentCompleted(c: Store, appointmentId: string): (t: Transition<(), Store>)
    ensures appointmentId !in c.appointments ==>
      t == Transition(Err(Rejected(200, APPOINTMENT_NOT_FOUND)), c)
    ensures appointmentId in c.appointments && c.appointments[appointmentId].flags.isCompleted ==>
      t == Transition(Err(Rejected(200, ALREADY_COMPLETED)), c)
    ensures t.result.Ok? <==>
      appointmentId in c.appointments && !c.appointments[appointmentId].flags.isCompleted
    ensures t.result.Ok? ==>
      var before := c.appointments[appointmentId];
      && t.next.appointments.Keys == c.appointments.Keys
      && var after := t.next.appointments[appointmentId];
      && after.flags.isCompleted
      && after.flags.cancel == before.flags.cancel
      && after.flags.payment == before.flags.payment
      && after == before.(flags := after.flags)
      && (forall id :: id in c.appointments && id != appointmentId ==>
            t.next.appointments[id] == c.appointments[id])
    ensures t.next.doctors == c.doctors && t.next.users == c.users
  {
    if appointmentId !in c.appointments then Transition(Err(Rejected(200, APPOINTMENT_NOT_FOUND)), c)
    else
      var a := c.appointments[appointmentId];
      if a.flags.isCompleted then Transition(Err(Rejected(200, ALREADY_COMPLETED)), c)
      else
        Transition(Ok(()), c.(appointments := c.appointments[appointmentId := a.(flags := a.flags.(isCompleted := true))]))
  }

  /** A second completion of the same appointment is refused and changes nothing. */
  lemma CompleteTwiceRefused(c: Store, appointmentId: string)
    requires MarkAppointmentCompleted(c, appointmentId).result.Ok?
    ensures var c1 := MarkAppointmentCompleted(c, appointmentId).next;
      MarkAppointmentCompleted(c1, appointmentId) == Transition(Err(Rejected(200, ALREADY_COMPLETED)), c1)
  {
  }
}

=== FILE: lifecycle.dfy ===
/** The appointment lifecycle as a whole: every state-changing handler of
    the three controllers as one action type, and the properties that hold
    across them (flags only ever switch on, appointments are never deleted,
    registries stay free of duplicates, booking and cancelling are inverse
    on the slot registry). */
module Lifecycle {
  import opened Outcomes
  import opened SlotRegistry
  import opened ClinicModel
  import opened UserController
  import opened AdminController
  import opened DoctorController
  import opened PaypalController

  datatype Action =
    | Book(userId: string, docId: string, slotDate: string, slotTime: string,
           newId: string, now: int, defaults: Flags)
    | PatientCancel(userId: string, appointmentId: string)
    | AdminCancel(appointmentId: string)
    | ToggleAvailability(docId: string)
    | UpdateProfile(docId: string, patch: DoctorPatch)
    | Complete(appointmentId: string)
    | Pay(orderId: string, appointmentId: string, token: Upstream<string>,
          orderStatus: (string, string) -> Upstream<string>)

  /** The store an action leaves behind, whether the handler succeeded or not. */
  function Apply(c: Store, a: Action): Store {
    match a
    case Book(u, d, date, time, id, now, defaults) => BookAppointment(c, u, d, date, time, id, now, defaults).next
    case PatientCancel(u, id) => CancelAppointment(c, u, id).next
    case AdminCancel(id) => AppointmentCancel(c, id).next
    case ToggleAvailability(d) => ChangeAvailability(c, d).next
    case UpdateProfile(d, p) => UpdateDoctorProfile(c, d, p).next
    case Complete(id) => MarkAppointmentCompleted(c, id).next
    case Pay(o, id, tok, st) => VerifyPayPalPayment(c, o, id, tok, st).next
  }

  function Run(c: Store, actions: seq<Action>): Store
    decreases |actions|
  {
    if |actions| == 0 then c else Run(Apply(c, actions[0]), actions[1..])
  }

  /** No handler deletes an appointment or switches a flag back off. */
  lemma ApplyGrowsLedger(c: Store, a: Action)
    ensures LedgerGrows(c, Apply(c, a))
  {
  }

  lemma LedgerGrowsTransitive(c1: Store, c2: Store, c3: Store)
    requires LedgerGrows(c1, c2) && LedgerGrows(c2, c3)
    ensures LedgerGrows(c1, c3)
  {
  }

  /** Flags are monotonic over any sequence of requests. */
  lemma {:induction false} RunGrowsLedger(c: Store, actions: seq<Action>)
    ensures LedgerGrows(c, Run(c, actions))
    decreases |actions|
  {
    if |actions| > 0 {
      var c1 := Apply(c, actions[0]);
      ApplyGrowsLedger(c, actions[0]);
      RunGrowsLedger(c1, actions[1..]);
      LedgerGrowsTransitive(c, c1, Run(c1, actions[1..]));
    }
  }

  /** Booking and both cancel paths keep every registry free of duplicate
      times; only a profile update that writes `slots_booked` directly can
      break that. */
  lemma ApplyKeepsRegistriesWellFormed(c: Store, a: Action)
    requires RegistriesWellFormed(c)
    requires !(a.UpdateProfile? && a.patch.slotsBooked.Some?)
    ensures RegistriesWellFormed(Apply(c, a))
  {
    match a
    case Book(u, d, date, time, id, now, defaults) =>
      BookKeepsRegistriesWellFormed(c, u, d, date, time, id, now, defaults);
    case PatientCancel(u, id) =>
      if id in c.appointments && c.appointments[id].userId == u {
        CancelKeepsRegistriesWellFormed(c, id);
      }
    case AdminCancel(id) =>
      if id in c.appointments {
        CancelKeepsRegistriesWellFormed(c, id);
      }
    case ToggleAvailability(d) =>
    case UpdateProfile(d, p) =>
    case Complete(id) =>
    case Pay(o, id, tok, st) =>
  }

  lemma BookKeepsRegistriesWellFormed(
    c: Store, userId: string, docId: string, slotDate: string, slotTime: string,
    newId: string, now: int, defaults: Flags)
    requires RegistriesWellFormed(c)
    ensures RegistriesWellFormed(BookAppointment(c, userId, docId, slotDate, slotTime, newId, now, defaults).next)
  {
    var t := BookAppointment(c, userId, docId, slotDate, slotTime, newId, now, defaults);
    if t.result.Ok? {
      var slots := c.doctors[docId].slotsBooked;
      ReservePreservesWellFormed(slots, slotDate, slotTime);
      assert t.next.doctors[docId].slotsBooked == Reserve(slots, slotDate, slotTime).value;
      forall x | x in t.next.doctors ensures WellFormed(t.next.doctors[x].slotsBooked) {
        if x != docId {
          assert t.next.doctors[x] == c.doctors[x];
        }
      }
    }
  }

  lemma CancelKeepsRegistriesWellFormed(c: Store, id: string)
    requires RegistriesWellFormed(c) && id in c.appointments
    ensures RegistriesWellFormed(CancelAndRelease(c, id).next)
  {
    var t := CancelAndRelease(c, id);
    if t.result.Ok? {
      var ap := c.appointments[id];
      var slots := c.doctors[ap.docId].slotsBooked;
      ReleasePreservesWellFormed(slots, ap.slotDate, ap.slotTime);
      forall x | x in t.next.doctors ensures WellFormed(t.next.doctors[x].slotsBooked) {
        if x != ap.docId {
          assert t.next.doctors[x] == c.doctors[x];
        }
      }
    }
  }

  /** Book, then cancel as the same patient: the cancel succeeds and the
      doctor's record is back to what it was, except that a date that had
      no entry before now has an empty one. */
  lemma BookThenCancelFreesSlot(
    c: Store, userId: string, docId: string, slotDate: string, slotTime: string,
    newId: string, now: int, defaults: Flags)
    requires BookAppointment(c, userId, docId, slotDate, slotTime, newId, now, defaults).result.Ok?
    ensures
      var c1 := BookAppointment(c, userId, docId, slotDate, slotTime, newId, now, defaults).next;
      var t := CancelAppointment(c1, userId, newId);
      var before := c.doctors[docId];
      && t.result.Ok?
      && docId in t.next.doctors
      && t.next.doctors[docId]
         == before.(slotsBooked := before.slotsBooked[slotDate := TimesOn(before.slotsBooked, slotDate)])
      && IsSlotFree(t.next.doctors[docId].slotsBooked, slotDate, slotTime)
  {
    var c1 := BookAppointment(c, userId, docId, slotDate, slotTime, newId, now, defaults).next;
    var before := c.doctors[docId];
    ReserveThenRelease(before.slotsBooked, slotDate, slotTime);
    assert c1.doctors[docId].slotsBooked == Reserve(before.slotsBooked, slotDate, slotTime).value;
  }

  /** The administrator's cancel is the patient's cancel with the ownership
      check taken out. */
  lemma AdminCancelSkipsOwnership(c: Store, appointmentId: string)
    requires appointmentId in c.appointments
    ensures AppointmentCancel(c, appointmentId)
         == CancelAppointment(c, c.appointments[appointmentId].userId, appointmentId)
  {
  }

  /** The policy the handlers implement: a cancelled appointment can still be
      completed, and a confirmed payment marks even a cancelled or completed
      appointment as paid. */
  lemma CancelDoesNotBlockCompletionOrPayment(
    c: Store, appointmentId: string, orderId: string,
    token: Upstream<string>, orderStatus: (string, string) -> Upstream<string>)
    requires appointmentId in c.appointments && c.appointments[appointmentId].flags.cancel
    requires Truthy(orderId) && Truthy(appointmentId) && Confirmed(orderId, token, orderStatus)
    ensures !c.appointments[appointmentId].flags.isCompleted ==>
      MarkAppointmentCompleted(c, appointmentId).result.Ok?
    ensures VerifyPayPalPayment(c, orderId, appointmentId, token, orderStatus).next
              .appointments[appointmentId].flags.payment
  {
  }
}

=== FILE: medicine_controller.dfy ===
/** The medicine catalogue handlers of controllers/medicineController.js:
    pagination of the catalogue, lookup by id, and the on-demand OpenFDA
    details with their memo cache. The catalogue is the list read once from
    the JSON file; the OpenFDA call is an input `fda` from the search term to
    the decoded reply. */
module MedicineController {
  import opened Outcomes
  import opened Text

  const MEDICINE_NOT_FOUND := "Medicine not found"
  const NO_DESCRIPTION := "No description available"
  const DEFAULT_PAGE := 1
  const DEFAULT_LIMIT := 100

  datatype Medicine = Medicine(id: string, name: string, category: string, description: string)

  /** The JSON body of getMedicines. */
  datatype PageReply = PageReply(data: seq<Medicine>, page: int, limit: int, totalItems: nat, totalPages: int)

  /** `parseInt(x, 10) || d`, with `None` for a query parameter that does not
      parse (NaN): both NaN and 0 are falsy and fall back to `d`. So with a
      non-zero default the handler never divides by zero, and a parsed value
      reaches it exactly when it is non-zero, negative ones included. */
  function OrDefault(parsed: Option<int>, d: int): (r: int)
    ensures d != 0 ==> r != 0
    ensures r == d || parsed == Some(r)
    ensures parsed.Some? && parsed.value != 0 ==> r == parsed.value
  {
    if parsed.None? || parsed.value == 0 then d else parsed.value
  }

  /** `Math.ceil(a / b)` on integers. */
  function CeilDiv(a: nat, b: int): (r: int)
    requires b != 0
    ensures b > 0 ==> r >= 0 && (r - 1) * b < a <= r * b
    ensures b < 0 ==> r * b <= a < (r - 1) * b
  {
    if b > 0 then
      var q := (a + b - 1) / b;
      assert q * b <= a + b - 1 < q * b + b;
      assert q >= 0;
      q
    else
      var q := a / -b;
      assert q * -b <= a < q * -b - b;
      -q
  }

  /** `medicines.slice(start, start + limit)` with `start = (page - 1) * limit`. */
  function Page(meds: seq<Medicine>, page: int, limit: int): seq<Medicine> {
    var start := (page - 1) * limit;
    JsSlice(meds, start, start + limit)
  }

  lemma MulMonotone(a: int, b: int, c: int)
    requires a <= b && c >= 0
    ensures a * c <= b * c
  {
    assert b * c - a * c == (b - a) * c;
  }

  /** For positive page and limit, a page is the window of the catalogue from
      `(page - 1) * limit` to `page * limit`, cut at the end. */
  lemma PageShape(meds: seq<Medicine>, page: int, limit: int)
    ensures page >= 1 && limit >= 1 ==>
      && Page(meds, page, limit) == meds[Min((page - 1) * limit, |meds|)..Min(page * limit, |meds|)]
      && |Page(meds, page, limit)| <= limit
  {
    if page >= 1 && limit >= 1 {
      MulMonotone(0, page - 1, limit);
      assert (page - 1) * limit + limit == page * limit;
    }
  }

  /** The page that getMedicines returns, for query parameters that parse to
      `pageArg` and `limitArg`. */
  function GetMedicines(meds: seq<Medicine>, pageArg: Option<int>, limitArg: Option<int>): (r: PageReply)
    ensures r.page == OrDefault(pageArg, DEFAULT_PAGE) && r.limit == OrDefault(limitArg, DEFAULT_LIMIT)
    ensures r.limit != 0 && r.totalItems == |meds|
    ensures r.data == Page(meds, r.page, r.limit)
    ensures r.totalPages == CeilDiv(|meds|, r.limit)
    ensures r.limit >= 1 ==> r.totalPages >= 0 && (r.totalPages - 1) * r.limit < |meds| <= r.totalPages * r.limit
  {
    var page := OrDefault(pageArg, DEFAULT_PAGE);
    var limit := OrDefault(limitArg, DEFAULT_LIMIT);
    var total := CeilDiv(|meds|, limit);
    PageReply(Page(meds, page, limit), page, limit, |meds|, total)
  }

  /** Every page after the last one is empty. */
  lemma PagesAfterLastAreEmpty(meds: seq<Medicine>, page: int, limit: int)
    requires limit >= 1
    requires page > CeilDiv(|meds|, limit)
    ensures Page(meds, page, limit) == []
  {
    var last := CeilDiv(|meds|, limit);
    MulMonotone(last, page - 1, limit);
    MulMonotone(0, page - 1, limit);
  }

  /** Pages 1..k laid end to end. */
  function Pages(meds: seq<Medicine>, limit: int, k: nat): seq<Medicine>
    decreases k
  {
    if k == 0 then [] else Pages(meds, limit, k - 1) + Page(meds, k, limit)
  }

  lemma {:induction false} PagesArePrefix(meds: seq<Medicine>, limit: int, k: nat)
    requires limit >= 1
    ensures Pages(meds, limit, k) == meds[..Min(k * limit, |meds|)]
    decreases k
  {
    if k > 0 {
      var a := Min((k - 1) * limit, |meds|);
      var b := Min(k * limit, |meds|);
      PagesArePrefix(meds, limit, k - 1);
      PageShape(meds, k, limit);
      ConsecutiveMultiples(k, limit);
      PagesStep(meds, limit, k, a, b);
    }
  }

  /** One more page extends the prefix read so far. */
  lemma PagesStep(meds: seq<Medicine>, limit: int, k: nat, a: int, b: int)
    requires k > 0 && 0 <= a <= b <= |meds|
    ensures Pages(meds, limit, k - 1) == meds[..a] && Page(meds, k, limit) == meds[a..b] ==>
      Pages(meds, limit, k) == meds[..b]
  {
    PrefixConcat(meds, a, b);
  }

  lemma ConsecutiveMultiples(k: int, limit: int)
    requires k >= 1 && limit >= 1
    ensures 0 <= (k - 1) * limit
    ensures (k - 1) * limit + limit == k * limit
  {
    MulMonotone(0, k - 1, limit);
  }

  lemma PrefixConcat(xs: seq<Medicine>, a: int, b: int)
    requires 0 <= a <= b <= |xs|
    ensures xs[..a] + xs[a..b] == xs[..b]
  {
  }

  /** Reading pages 1 to totalPages in turn reproduces the whole catalogue, in order. */
  lemma PagesCoverCatalogue(meds: seq<Medicine>, pageArg: Option<int>, limitArg: Option<int>)
    requires GetMedicines(meds, pageArg, limitArg).limit >= 1
    ensures var r := GetMedicines(meds, pageArg, limitArg);
      r.totalPages >= 0 && Pages(meds, r.limit, r.totalPages) == meds
  {
    var r := GetMedicines(meds, pageArg, limitArg);
    PagesArePrefix(meds, r.limit, r.totalPages);
    assert meds[..|meds|] == meds;
  }

  /** The position of the first medicine with this id, or -1. */
  function FirstWithId(meds: seq<Medicine>, id: string): (i: int)
    ensures -1 <= i < |meds|
    ensures i == -1 <==> forall j :: 0 <= j < |meds| ==> meds[j].id != id
    ensures i >= 0 ==> meds[i].id == id && forall j :: 0 <= j < i ==> meds[j].id != id
    decreases |meds|
  {
    if |meds| == 0 then -1
    else if meds[0].id == id then 0
    else
      var j := FirstWithId(meds[1..], id);
      if j == -1 then -1 else j + 1
  }

  /** getMedicineById: the first medicine whose id matches, or 404. */
  function GetMedicineById(meds: seq<Medicine>, id: string): (r: Result<Medicine>)
    ensures r.Err? <==> forall j :: 0 <= j < |meds| ==> meds[j].id != id
    ensures r.Err? ==> r == Err(Rejected(404, MEDICINE_NOT_FOUND))
    ensures r.Ok? ==>
      exists i :: 0 <= i < |meds| && meds[i] == r.value && r.value.id == id
        && forall j :: 0 <= j < i ==> meds[j].id != id
  {
    var i := FirstWithId(meds, id);
    if i == -1 then Err(Rejected(404, MEDICINE_NOT_FOUND)) else Ok(meds[i])
  }

  /** The fields of an OpenFDA label the handler reads; an absent array is empty. */
  datatype Label = Label(description: seq<string>, indications: seq<string>, splImage: seq<string>)

  /** The OpenFDA reply: its HTTP status and `results` array (empty when
      absent), or `FdaFailed` when the request or its decoding throws. */
  datatype FdaReply = FdaReply(status: int, results: seq<Label>) | FdaFailed

  /** The cached and returned details of one medicine. */
  datatype Details = Details(
    id: string,
    name: string,
    category: string,
    description: string,
    indications: Option<string>,
    image: Option<string>)

  /** `(xs && xs[0]) || null`. */
  function FirstTruthy(xs: seq<string>): (r: Option<string>)
    ensures r.Some? ==> Truthy(r.value) && |xs| > 0 && r.value == xs[0]
    ensures r.None? ==> xs == [] || !Truthy(xs[0])
  {
    if |xs| > 0 && Truthy(xs[0]) then Some(xs[0]) else None
  }

  /** The description chain: the label's first description, else the local
      description, else a fixed text. The result is never empty. */
  function Describe(info: Label, m: Medicine): (r: string)
    ensures FirstTruthy(info.description).Some? ==> r == info.description[0]
    ensures FirstTruthy(info.description).None? && Truthy(m.description) ==> r == m.description
    ensures FirstTruthy(info.description).None? && !Truthy(m.description) ==> r == NO_DESCRIPTION
    ensures Truthy(r)
  {
    match FirstTruthy(info.description)
    case Some(d) => d
    case None => if Truthy(m.description) then m.description else NO_DESCRIPTION
  }

  /** The term sent to OpenFDA: the first space-separated word of the name
      (before URL encoding, which is not modelled). */
  function SearchTerm(name: string): (term: string)
    ensures ' ' !in term && StartsWith(name, term)
    ensures |term| == |name| || name[|term|] == ' '
    ensures ' ' !in name ==> term == name
  {
    FirstField(name, ' ');
    Split(name, ' ')[0]
  }

  /** `data.results[0]` when a successful reply has one, else the empty label `{}`. */
  function FirstLabel(results: seq<Label>): Label {
    if |results| > 0 then results[0] else Label([], [], [])
  }

  predicate IsOk(status: int) {
    200 <= status <= 299
  }

  /** getMedicineOnline: a cached id is answered from the cache without any
      lookup; otherwise the medicine is looked up, OpenFDA is asked, and the
      assembled details are cached. A 404 from OpenFDA counts as "no label";
      any other failure is an error and caches nothing. */
  function GetMedicineOnline(
    cache: map<string, Details>, meds: seq<Medicine>, id: string, fda: string -> FdaReply
  ): (t: Transition<Details, map<string, Details>>)
    ensures id in cache ==> t == Transition(Ok(cache[id]), cache)
    ensures id !in cache && (forall j :: 0 <= j < |meds| ==> meds[j].id != id) ==>
      t == Transition(Err(Rejected(404, MEDICINE_NOT_FOUND)), cache)
    ensures t.result.Err? ==> t.next == cache
    ensures id !in cache ==>
      (t.result.Ok? <==>
        && GetMedicineById(meds, id).Ok?
        && var reply := fda(SearchTerm(GetMedicineById(meds, id).value.name));
        && reply.FdaReply? && (IsOk(reply.status) || reply.status == 404))
    ensures id !in cache && GetMedicineById(meds, id).Ok? && t.result.Err? ==> t.result == Err(Threw(500))
    ensures t.result.Ok? ==>
      && t.next.Keys == cache.Keys + {id}
      && t.next[id] == t.result.value
      && (forall k :: k in cache ==> t.next[k] == cache[k])
    ensures id !in cache && t.result.Ok? ==>
      && GetMedicineById(meds, id).Ok?
      && var m := GetMedicineById(meds, id).value;
      && var d := t.result.value;
      && d.id == id && d.name == m.name && d.category == m.category
      && var reply := fda(SearchTerm(m.name));
      && reply.FdaReply?
      && (IsOk(reply.status) || reply.status == 404)
      && var info := if IsOk(reply.status) then FirstLabel(reply.results) else Label([], [], []);
      && d.description == Describe(info, m)
      && d.indications == FirstTruthy(info.indications)
      && d.image == FirstTruthy(info.splImage)
  {
    if id in cache then Transition(Ok(cache[id]), cache)
    else match GetMedicineById(meds, id)
      case Err(f) => Transition(Err(f), cache)
      case Ok(m) =>
        match fda(SearchTerm(m.name))
        case FdaFailed => Transition(Err(Threw(500)), cache)
        case FdaReply(status, results) =>
          if !IsOk(status) && status != 404 then Transition(Err(Threw(500)), cache)
          else
            var info := if IsOk(status) then FirstLabel(results) else Label([], [], []);
            var d := Details(id, m.name, m.category, Describe(info, m),
                             FirstTruthy(info.indications), FirstTruthy(info.splImage));
            Transition(Ok(d), cache[id := d])
  }

  /** Memoisation: once a call has produced details for an id, every later
      call for that id returns them unchanged, whatever the catalogue and
      OpenFDA would now say, and leaves the cache as it is. */
  lemma OnlineDetailsMemoised(
    cache: map<string, Details>, meds: seq<Medicine>, id: string, fda: string -> FdaReply,
    meds': seq<Medicine>, fda': string -> FdaReply)
    requires GetMedicineOnline(cache, meds, id, fda).result.Ok?
    ensures var t := GetMedicineOnline(cache, meds, id, fda);
      GetMedicineOnline(t.next, meds', id, fda') == Transition(t.result, t.next)
  {
  }
}

=== FILE: order_controller.dfy ===
/** The order handlers of controllers/orderController.js: creation and the
    two status transitions. */
module OrderController {
  import opened Outcomes
  import opened ClinicModel
  import opened AuthUser

  const USER_NOT_FOUND := "User not found"
  const ORDER_NOT_FOUND := "Order not found"
  const PENDING := "pending"
  const PAYMENT_COMPLETED := "completed"
  const PROCESSING := "processing"

  datatype Order = Order(
    user: string,
    userName: string,
    userEmail: string,
    items: seq<string>,          // the request's items, passed through unread
    totalAmount: int,
    paymentMethod: string,
    shippingAddress: string,
    paymentStatus: string,
    paymentId: Option<string>,
    status: string)

  /** The fields of the order request body. */
  datatype OrderRequest = OrderRequest(
    items: seq<string>, totalAmount: int, paymentMethod: string, shippingAddress: string)

  /** createOrder, given the user id the handler reads from the request
      (`None` when that property is absent). `newId` is the id the store
      assigns and `initialStatus` the order schema's default `status`, which
      the handler does not set. */
  function CreateOrder(
    users: map<string, Patient>, orders: map<string, Order>, userId: Option<string>,
    req: OrderRequest, newId: string, initialStatus: string
  ): (t: Transition<string, map<string, Order>>)
    ensures userId.None? || userId.value !in users ==>
      t == Transition(Err(Rejected(404, USER_NOT_FOUND)), orders)
    ensures t.result.Err? ==> t.next == orders
    ensures t.result.Ok? <==> userId.Some? && userId.value in users && newId !in orders
    ensures t.result.Ok? ==>
      var u := users[userId.value];
      && t.result.value == newId
      && t.next.Keys == orders.Keys + {newId}
      && (forall id :: id in orders ==> t.next[id] == orders[id])
      && var o := t.next[newId];
      && o.user == userId.value && o.userName == u.name && o.userEmail == u.email
      && o.paymentStatus == PENDING && o.paymentId.None? && o.status == initialStatus
      && o.items == req.items && o.totalAmount == req.totalAmount
      && o.paymentMethod == req.paymentMethod && o.shippingAddress == req.shippingAddress
  {
    if userId.None? || userId.value !in users then Transition(Err(Rejected(404, USER_NOT_FOUND)), orders)
    else if newId in orders then Transition(Err(Threw(500)), orders)
    else
      var u := users[userId.value];
      var o := Order(userId.value, u.name, u.email, req.items, req.totalAmount,
                     req.paymentMethod, req.shippingAddress, PENDING, None, initialStatus);
      Transition(Ok(newId), orders[newId := o])
  }

  /** updatePaymentStatus: records the provider's status and payment id, and
      moves the order to "processing" exactly when the status is "completed". */
  function UpdatePaymentStatus(
    orders: map<string, Order>, orderId: string, paymentId: Option<string>, status: string
  ): (t: Transition<(), map<string, Order>>)
    ensures orderId !in orders ==> t == Transition(Err(Rejected(404, ORDER_NOT_FOUND)), orders)
    ensures t.result.Ok? <==> orderId in orders
    ensures t.result.Ok? ==>
      var before := orders[orderId];
      && t.next.Keys == orders.Keys
      && (forall id :: id in orders && id != orderId ==> t.next[id] == orders[id])
      && var after := t.next[orderId];
      && after.paymentStatus == status && after.paymentId == paymentId
      && (status == PAYMENT_COMPLETED ==> after.status == PROCESSING)
      && (status != PAYMENT_COMPLETED ==> after.status == before.status)
      && after == before.(paymentStatus := status, paymentId := paymentId, status := after.status)
  {
    if orderId !in orders then Transition(Err(Rejected(404, ORDER_NOT_FOUND)), orders)
    else
      var o := orders[orderId];
      var o' := o.(paymentStatus := status, paymentId := paymentId,
                   status := if status == PAYMENT_COMPLETED then PROCESSING else o.status);
      Transition(Ok(()), orders[orderId := o'])
  }

  /** updateOrderStatus: sets `status` and nothing else. */
  function UpdateOrderStatus(orders: map<string, Order>, orderId: string, status: string): (t: Transition<(), map<string, Order>>)
    ensures orderId !in orders ==> t == Transition(Err(Rejected(404, ORDER_NOT_FOUND)), orders)
    ensures t.result.Ok? <==> orderId in orders
    ensures t.result.Ok? ==>
      && t.next.Keys == orders.Keys
      && (forall id :: id in orders && id != orderId ==> t.next[id] == orders[id])
      && t.next[orderId].status == status
      && t.next[orderId] == orders[orderId].(status := t.next[orderId].status)
  {
    if orderId !in orders then Transition(Err(Rejected(404, ORDER_NOT_FOUND)), orders)
    else Transition(Ok(()), orders[orderId := orders[orderId].(status := status)])
  }

  /** Recording the same payment update twice is the same as recording it once. */
  lemma UpdatePaymentStatusIdempotent(orders: map<string, Order>, orderId: string, paymentId: Option<string>, status: string)
    ensures var once := UpdatePaymentStatus(orders, orderId, paymentId, status).next;
      UpdatePaymentStatus(once, orderId, paymentId, status).next == once
  {
    var once := UpdatePaymentStatus(orders, orderId, paymentId, status).next;
    if orderId in orders {
      var o := once[orderId];
      assert o.(paymentStatus := status, paymentId := paymentId,
                status := if status == PAYMENT_COMPLETED then PROCESSING else o.status) == o;
      assert once[orderId := o] == once;
    }
  }

  /** Setting the same status twice is the same as setting it once. */
  lemma UpdateOrderStatusIdempotent(orders: map<string, Order>, orderId: string, status: string)
    ensures var once := UpdateOrderStatus(orders, orderId, status);
      UpdateOrderStatus(once.next, orderId, status) == once
  {
    var once := UpdateOrderStatus(orders, orderId, status);
    if orderId in orders {
      var o := once.next[orderId];
      assert o.(status := status) == o;
      assert once.next[orderId := o] == once.next;
    }
  }

  /** A new order is pending; once its payment is recorded as completed it
      is "processing", still belongs to the same user, and the orders that
      existed before are untouched throughout. */
  lemma CreateThenCompletePayment(
    users: map<string, Patient>, orders: map<string, Order>, userId: string,
    req: OrderRequest, newId: string, initialStatus: string, paymentId: Option<string>)
    requires userId in users && newId !in orders
    ensures var created := CreateOrder(users, orders, Some(userId), req, newId, initialStatus);
      var paid := UpdatePaymentStatus(created.next, newId, paymentId, PAYMENT_COMPLETED);
      && created.result == Ok(newId)
      && created.next[newId].paymentStatus == PENDING
      && paid.result.Ok?
      && paid.next[newId].paymentStatus == PAYMENT_COMPLETED
      && paid.next[newId].status == PROCESSING
      && paid.next[newId].paymentId == paymentId
      && paid.next[newId].user == userId
      && paid.next.Keys == orders.Keys + {newId}
      && (forall id :: id in orders ==> paid.next[id] == orders[id])
  {
    var created := CreateOrder(users, orders, Some(userId), req, newId, initialStatus);
    assert newId in created.next;
  }

  /** `req.user._id` on the object the user-token middleware attaches, which
      has only an `id` and an `email` property. */
  function UnderscoreId(u: RequestUser): Option<string> {
    None
  }

  /** createOrder as routed behind the user-token middleware: it reads
      `req.user._id`, which is undefined, and the store finds no user for an
      undefined id. */
  function CreateOrderAsRouted(
    users: map<string, Patient>, orders: map<string, Order>, u: RequestUser,
    req: OrderRequest, newId: string, initialStatus: string
  ): (t: Transition<string, map<string, Order>>)
  {
    CreateOrder(users, orders, UnderscoreId(u), req, newId, initialStatus)
  }

  /** Whatever the caller and the store, the routed handler answers 404 and
      creates no order. */
  lemma CreateOrderAsRoutedAlwaysNotFound(
    users: map<string, Patient>, orders: map<string, Order>, u: RequestUser,
    req: OrderRequest, newId: string, initialStatus: string)
    ensures CreateOrderAsRouted(users, orders, u, req, newId, initialStatus)
         == Transition(Err(Rejected(404, USER_NOT_FOUND)), orders)
  {
  }

  /** createOrder reading the id the middleware actually sets. */
  function CreateOrderForRequestUser(
    users: map<string, Patient>, orders: map<string, Order>, u: RequestUser,
    req: OrderRequest, newId: string, initialStatus: string
  ): (t: Transition<string, map<string, Order>>)
    ensures t.result.Ok? <==> u.id.Some? && u.id.value in users && newId !in orders
    ensures t.result.Ok? ==>
      && newId in t.next
      && t.next[newId].user == u.id.value
      && t.next[newId].userName == users[u.id.value].name
      && t.next[newId].userEmail == users[u.id.value].email
      && t.next[newId].paymentStatus == PENDING
  {
    CreateOrder(users, orders, u.id, req, newId, initialStatus)
  }
}

=== FILE: outcomes.dfy ===
/** Reply shapes shared by every handler of the backend.

    A handler either succeeds with a value, or answers with `success: false`.
    The failing answers come in two kinds, which the model keeps apart:
    - `Rejected`: the handler's own early `return res.json(...)` with a
      literal message (the message is part of the model);
    - `Threw`: an exception (a `null` dereference, a failed save, a failed
      HTTP call) caught by the handler's `catch` block; the message is the
      runtime's and is not modelled, only the HTTP status the catch sends.
    A status of 200 means the source answers with `res.json` and no `.status`. */
module Outcomes {

  datatype Option<+T> = None | Some(value: T)

  datatype Failure =
    | Rejected(status: int, message: string)
    | Threw(status: int)

  datatype Result<+T> = Ok(value: T) | Err(failure: Failure)

  /** The reply of a stateful handler together with the store it leaves behind. */
  datatype Transition<+T, +S> = Transition(result: Result<T>, next: S)

  /** What a call to a third-party service yields: its decoded reply, or
      `Failed` when the request or the decoding of its JSON body throws. */
  datatype Upstream<+T> = Replied(body: T) | Failed

  /** JavaScript truthiness of a string: only the empty string is falsy. */
  predicate Truthy(s: string) {
    s != ""
  }

  /** `x || ""` for an optional string field: the field's value when it is
      present and non-empty, otherwise the empty (falsy) string. */
  function OrEmpty(s: Option<string>): (r: string)
    ensures Truthy(r) <==> s.Some? && Truthy(s.value)
    ensures Truthy(r) ==> r == s.value
  {
    match s
    case Some(v) => v
    case None => ""
  }
}

=== FILE: paypal_controller.dfy ===
/** verifyPayPalPayment of controllers/paypalController.js, with the two
    PayPal calls as inputs: `token` is the `access_token` field of the OAuth
    reply ("" when absent), and `orderStatus(orderId, accessToken)` is the
    `status` field of the order-details reply ("" when absent). */
module PaypalController {
  import opened Outcomes
  import opened ClinicModel

  const MISSING_IDS := "Missing orderID or appointmentId"
  const NO_ACCESS_TOKEN := "Failed to get PayPal access token"
  const PAYMENT_NOT_COMPLETED := "Payment not completed"
  const COMPLETED := "COMPLETED"

  /** The provider confirms this order as paid. */
  predicate Confirmed(orderId: string, token: Upstream<string>, orderStatus: (string, string) -> Upstream<string>) {
    token.Replied? && Truthy(token.body) && orderStatus(orderId, token.body) == Replied(COMPLETED)
  }

  /** Marks the appointment paid when the provider reports the order
      COMPLETED, whatever its other flags say. The update of an unknown
      appointment id matches nothing and still answers success. */
  function VerifyPayPalPayment(
    c: Store, orderId: string, appointmentId: string,
    token: Upstream<string>, orderStatus: (string, string) -> Upstream<string>
  ): (t: Transition<(), Store>)
    ensures !Truthy(orderId) || !Truthy(appointmentId) ==>
      t == Transition(Err(Rejected(400, MISSING_IDS)), c)
    ensures t.result.Err? ==> t.next == c
    ensures Truthy(orderId) && Truthy(appointmentId) && token.Failed? ==> t.result == Err(Threw(500))
    ensures Truthy(orderId) && Truthy(appointmentId) && token == Replied("") ==>
      t.result == Err(Rejected(500, NO_ACCESS_TOKEN))
    ensures (Truthy(orderId) && Truthy(appointmentId) && token.Replied? && Truthy(token.body)
             && orderStatus(orderId, token.body).Replied?
             && orderStatus(orderId, token.body).body != COMPLETED) ==>
      t.result == Err(Rejected(400, PAYMENT_NOT_COMPLETED))
    ensures (Truthy(orderId) && Truthy(appointmentId) && token.Replied? && Truthy(token.body)
             && orderStatus(orderId, token.body).Failed?) ==>
      t.result == Err(Threw(500))
    ensures t.result.Ok? <==> Truthy(orderId) && Truthy(appointmentId) && Confirmed(orderId, token, orderStatus)
    ensures t.result.Ok? ==>
      && t.next.doctors == c.doctors && t.next.users == c.users
      && t.next.appointments.Keys == c.appointments.Keys
      && (forall id :: id in c.appointments && id != appointmentId ==>
            t.next.appointments[id] == c.appointments[id])
      && (appointmentId in c.appointments ==>
            var before, after := c.appointments[appointmentId], t.next.appointments[appointmentId];
            && after.flags == before.flags.(payment := true)
            && after == before.(flags := after.flags))
  {
    if !Truthy(orderId) || !Truthy(appointmentId) then Transition(Err(Rejected(400, MISSING_IDS)), c)
    else match token
      case Failed => Transition(Err(Threw(500)), c)
      case Replied(accessToken) =>
        if !Truthy(accessToken) then Transition(Err(Rejected(500, NO_ACCESS_TOKEN)), c)
        else match orderStatus(orderId, accessToken)
          case Failed => Transition(Err(Threw(500)), c)
          case Replied(status) =>
            if status != COMPLETED then Transition(Err(Rejected(400, PAYMENT_NOT_COMPLETED)), c)
            else if appointmentId !in c.appointments then Transition(Ok(()), c)
            else
              var a := c.appointments[appointmentId];
              Transition(Ok(()), c.(appointments := c.appointments[appointmentId := a.(flags := a.flags.(payment := true))]))
  }

  /** Repeating a successful verification leaves the store as the first one did. */
  lemma VerifyIdempotent(
    c: Store, orderId: string, appointmentId: string,
    token: Upstream<string>, orderStatus: (string, string) -> Upstream<string>)
    requires VerifyPayPalPayment(c, orderId, appointmentId, token, orderStatus).result.Ok?
    ensures var c1 := VerifyPayPalPayment(c, orderId, appointmentId, token, orderStatus).next;
      VerifyPayPalPayment(c1, orderId, appointmentId, token, orderStatus) == Transition(Ok(()), c1)
  {
    var c1 := VerifyPayPalPayment(c, orderId, appointmentId, token, orderStatus).next;
    if appointmentId in c.appointments {
      var a1 := c1.appointments[appointmentId];
      assert a1.flags.payment;
      assert a1.(flags := a1.flags.(payment := true)) == a1;
      assert c1.appointments[appointmentId := a1] == c1.appointments;
    }
  }
}

=== FILE: slot_registry.dfy ===
/** The per-doctor slot registry (`slots_booked` on a doctor record): a map
    from a calendar-date string to the time strings already booked on that
    date, in the order they were booked.

    Booking (controllers/userController.js, bookAppointment) reserves a time;
    both cancel paths (userController.js cancelAppointment and
    controllers/adminController.js appointmentCancel) release it with
    `slots_booked[slotDate].filter(e => e !== slotTime)`. */
module SlotRegistry {
  import opened Outcomes

  type Slots = map<string, seq<string>>

  /** A time is free on a date when the date has no list or its list lacks the time. */
  predicate IsSlotFree(s: Slots, date: string, time: string) {
    date !in s || time !in s[date]
  }

  /** The times booked on `date`; a date without an entry has none. */
  function TimesOn(s: Slots, date: string): seq<string> {
    if date in s then s[date] else []
  }

  /** Each date lists a time at most once: what booking intends, although
      nothing in the store enforces it. */
  predicate NoDuplicates(xs: seq<string>) {
    forall i, j :: 0 <= i < j < |xs| ==> xs[i] != xs[j]
  }

  predicate WellFormed(s: Slots) {
    forall d :: d in s ==> NoDuplicates(s[d])
  }

  /** The reservation step of booking. `None` is "Slot is already booked".
      A date whose entry exists (even an empty array, which JavaScript treats
      as truthy) gets the time appended; a date without one gets `[time]`. */
  function Reserve(s: Slots, date: string, time: string): (r: Option<Slots>)
    ensures r.None? <==> !IsSlotFree(s, date, time)
    ensures r.Some? ==> !IsSlotFree(r.value, date, time)
    ensures r.Some? ==> r.value.Keys == s.Keys + {date}
    ensures r.Some? ==> forall d :: d in s && d != date ==> r.value[d] == s[d]
    ensures r.Some? ==> r.value[date] == TimesOn(s, date) + [time]
  {
    if date in s then
      if time in s[date] then None else Some(s[date := s[date] + [time]])
    else
      Some(s[date := [time]])
  }

  /** `xs.filter(e => e !== t)`. */
  function RemoveAll(xs: seq<string>, t: string): (r: seq<string>)
    ensures t !in r
    ensures forall x :: x in r <==> x in xs && x != t
    ensures |r| <= |xs|
    decreases |xs|
  {
    if |xs| == 0 then []
    else (if xs[0] == t then [] else [xs[0]]) + RemoveAll(xs[1..], t)
  }

  /** Filtering distributes over concatenation, so the kept times stay in
      their original order. */
  lemma {:induction false} RemoveAllConcat(a: seq<string>, b: seq<string>, t: string)
    ensures RemoveAll(a + b, t) == RemoveAll(a, t) + RemoveAll(b, t)
    decreases |a|
  {
    if |a| > 0 {
      assert (a + b)[1..] == a[1..] + b;
      RemoveAllConcat(a[1..], b, t);
    } else {
      assert a + b == b;
    }
  }

  /** Filtering out a time that is not there changes nothing. */
  lemma {:induction false} RemoveAllAbsent(xs: seq<string>, t: string)
    requires t !in xs
    ensures RemoveAll(xs, t) == xs
    decreases |xs|
  {
    if |xs| > 0 {
      assert xs[0] in xs;
      RemoveAllAbsent(xs[1..], t);
      assert [xs[0]] + xs[1..] == xs;
    }
  }

  /** Every other time keeps its number of occurrences; `t` keeps none. */
  lemma {:induction false} RemoveAllCounts(xs: seq<string>, t: string)
    ensures multiset(RemoveAll(xs, t))[t] == 0
    ensures forall x :: x != t ==> multiset(RemoveAll(xs, t))[x] == multiset(xs)[x]
    decreases |xs|
  {
    if |xs| > 0 {
      RemoveAllCounts(xs[1..], t);
      assert xs == [xs[0]] + xs[1..];
    }
  }

  lemma {:induction false} RemoveAllNoDuplicates(xs: seq<string>, t: string)
    requires NoDuplicates(xs)
    ensures NoDuplicates(RemoveAll(xs, t))
    decreases |xs|
  {
    if |xs| > 0 {
      RemoveAllNoDuplicates(xs[1..], t);
      var rest := RemoveAll(xs[1..], t);
      if xs[0] != t {
        assert xs[0] !in xs[1..] by {
          forall j | 0 <= j < |xs[1..]| ensures xs[1..][j] != xs[0] {
            assert xs[1..][j] == xs[j + 1];
          }
        }
        assert xs[0] !in rest;
        var r := [xs[0]] + rest;
        forall i, j | 0 <= i < j < |r| ensures r[i] != r[j] {
          if i == 0 {
            assert r[j] == rest[j - 1];
            assert r[j] in rest;
          } else {
            assert r[i] == rest[i - 1] && r[j] == rest[j - 1];
          }
        }
      }
    }
  }

  /** The release step of both cancel paths. `None` is the exception thrown
      by `undefined.filter(...)` when the date has no entry. */
  function Release(s: Slots, date: string, time: string): (r: Option<Slots>)
    ensures r.None? <==> date !in s
    ensures r.Some? ==> IsSlotFree(r.value, date, time)
    ensures r.Some? ==> r.value.Keys == s.Keys
    ensures r.Some? ==> forall d :: d in s && d != date ==> r.value[d] == s[d]
    ensures r.Some? ==> r.value[date] == RemoveAll(s[date], time)
  {
    if date in s then Some(s[date := RemoveAll(s[date], time)]) else None
  }

  /** Releasing a time just reserved gives back the registry as it was, except
      that a date that had no entry now has an empty one. */
  lemma ReserveThenRelease(s: Slots, date: string, time: string)
    requires Reserve(s, date, time).Some?
    ensures Release(Reserve(s, date, time).value, date, time) == Some(s[date := TimesOn(s, date)])
  {
    var before := TimesOn(s, date);
    var s1 := Reserve(s, date, time).value;
    assert s1 == s[date := before + [time]];
    RemoveAllConcat(before, [time], time);
    RemoveAllAbsent(before, time);
    assert RemoveAll(s1[date], time) == before;
    assert s1[date := before] == s[date := before];
  }

  /** Releasing a time that is not booked is a silent no-op that still
      succeeds, so releasing twice is the same as releasing once. */
  lemma ReleaseIdempotent(s: Slots, date: string, time: string)
    requires Release(s, date, time).Some?
    ensures Release(Release(s, date, time).value, date, time) == Release(s, date, time)
  {
    var s1 := Release(s, date, time).value;
    RemoveAllAbsent(s1[date], time);
    assert s1[date := RemoveAll(s1[date], time)] == s1;
  }

  lemma ReservePreservesWellFormed(s: Slots, date: string, time: string)
    requires WellFormed(s)
    requires Reserve(s, date, time).Some?
    ensures WellFormed(Reserve(s, date, time).value)
  {
    var xs := TimesOn(s, date);
    var ys := xs + [time];
    forall i, j | 0 <= i < j < |ys| ensures ys[i] != ys[j] {
      if j == |xs| {
        assert ys[i] == xs[i];
      } else {
        assert ys[i] == xs[i] && ys[j] == xs[j];
      }
    }
  }

  lemma ReleasePreservesWellFormed(s: Slots, date: string, time: string)
    requires WellFormed(s)
    requires Release(s, date, time).Some?
    ensures WellFormed(Release(s, date, time).value)
  {
    RemoveAllNoDuplicates(s[date], time);
  }
}

=== FILE: text.dfy ===
/** The few JavaScript string and array built-ins the handlers rely on,
    stated over `seq<char>`: `split` and `join` with a one-character
    separator, `startsWith`, `indexOf`, `lastIndexOf`, `slice` (with its
    negative-index convention), an ASCII `toLowerCase` and `Math.min`. */
module Text {

  /** `s.split(sep)`: the runs of characters between separators, in order.
      There is always at least one field, and fields may be empty. */
  function Split(s: string, sep: char): (parts: seq<string>)
    ensures |parts| >= 1
    ensures forall i :: 0 <= i < |parts| ==> sep !in parts[i]
    decreases |s|
  {
    if |s| == 0 then [""]
    else
      var rest := Split(s[1..], sep);
      if s[0] == sep then [""] + rest
      else [[s[0]] + rest[0]] + rest[1..]
  }

  /** `parts.join(sep)`. */
  function Join(parts: seq<string>, sep: char): string
  {
    if |parts| == 0 then ""
    else if |parts| == 1 then parts[0]
    else parts[0] + [sep] + Join(parts[1..], sep)
  }

  /** Joining the fields of a split gives back the original string. */
  lemma {:induction false} JoinSplit(s: string, sep: char)
    ensures Join(Split(s, sep), sep) == s
    decreases |s|
  {
    if |s| > 0 {
      var rest := Split(s[1..], sep);
      JoinSplit(s[1..], sep);
      if s[0] == sep {
        assert Join([""] + rest, sep) == [sep] + Join(rest, sep);
      } else if |rest| == 1 {
        assert Split(s, sep) == [[s[0]] + rest[0]];
      } else {
        assert Join(rest, sep) == rest[0] + [sep] + Join(rest[1..], sep);
        assert Join(Split(s, sep), sep) == [s[0]] + rest[0] + [sep] + Join(rest[1..], sep);
      }
    }
  }

  /** A string without the separator is a single field. */
  lemma {:induction false} SplitWithoutSeparator(s: string, sep: char)
    requires sep !in s
    ensures Split(s, sep) == [s]
    decreases |s|
  {
    if |s| > 0 {
      assert s[0] in s;
      SplitWithoutSeparator(s[1..], sep);
      assert [s[0]] + s[1..] == s;
    }
  }

  /** A separator between `a` and `b` ends the fields of `a` and starts those of `b`. */
  lemma {:induction false} SplitAround(a: string, sep: char, b: string)
    ensures Split(a + [sep] + b, sep) == Split(a, sep) + Split(b, sep)
    decreases |a|
  {
    var s := a + [sep] + b;
    if |a| == 0 {
      assert s[1..] == b;
    } else {
      assert s[1..] == a[1..] + [sep] + b;
      SplitAround(a[1..], sep, b);
    }
  }

  /** The first field of a split: the longest separator-free prefix. */
  lemma {:induction false} FirstField(s: string, sep: char)
    ensures var f := Split(s, sep)[0];
      && |f| <= |s| && s[..|f|] == f
      && (|f| == |s| || s[|f|] == sep)
    decreases |s|
  {
    if |s| > 0 {
      FirstField(s[1..], sep);
    }
  }

  /** Splitting the join of separator-free fields gives back the fields. */
  lemma {:induction false} SplitJoin(parts: seq<string>, sep: char)
    requires |parts| >= 1
    requires forall i :: 0 <= i < |parts| ==> sep !in parts[i]
    ensures Split(Join(parts, sep), sep) == parts
    decreases |parts|
  {
    SplitWithoutSeparator(parts[0], sep);
    if |parts| > 1 {
      SplitJoin(parts[1..], sep);
      SplitAround(parts[0], sep, Join(parts[1..], sep));
      assert [parts[0]] + parts[1..] == parts;
    }
  }

  /** `s.startsWith(prefix)`. */
  predicate StartsWith(s: string, prefix: string) {
    |prefix| <= |s| && s[..|prefix|] == prefix
  }

  /** `xs.indexOf(x)`: the first position holding `x`, or -1. */
  function IndexOf<T(==)>(xs: seq<T>, x: T): (i: int)
    ensures -1 <= i < |xs|
    ensures i == -1 <==> x !in xs
    ensures i >= 0 ==> xs[i] == x && x !in xs[..i]
    decreases |xs|
  {
    if |xs| == 0 then -1
    else if xs[0] == x then 0
    else
      var j := IndexOf(xs[1..], x);
      if j == -1 then -1 else j + 1
  }

  /** `s.lastIndexOf(c)`: the last position holding `c`, or -1. */
  function LastIndexOf(s: string, c: char): (i: int)
    ensures -1 <= i < |s|
    ensures i == -1 <==> c !in s
    ensures i >= 0 ==> s[i] == c && c !in s[i + 1..]
    decreases |s|
  {
    if |s| == 0 then -1
    else if s[|s| - 1] == c then |s| - 1
    else
      var j := LastIndexOf(s[..|s| - 1], c);
      LastIndexOfStep(s, c, j);
      j
  }

  /** A last occurrence in all but the final character, which is not `c`,
      is the last occurrence in the whole string. */
  lemma LastIndexOfStep(s: string, c: char, j: int)
    requires 0 < |s| && s[|s| - 1] != c
    requires -1 <= j < |s| - 1
    requires j == -1 <==> c !in s[..|s| - 1]
    requires j >= 0 ==> s[j] == c && c !in s[..|s| - 1][j + 1..]
    ensures j == -1 <==> c !in s
    ensures j >= 0 ==> s[j] == c && c !in s[j + 1..]
  {
    var p := s[..|s| - 1];
    assert s == p + [s[|s| - 1]];
    if j >= 0 {
      assert s[j + 1..] == p[j + 1..] + [s[|s| - 1]];
    }
  }

  /** The first occurrence after a prefix that lacks the element. */
  lemma {:induction false} IndexOfAfter<T>(xs: seq<T>, x: T, ys: seq<T>)
    requires x !in xs
    ensures IndexOf(xs + [x] + ys, x) == |xs|
    decreases |xs|
  {
    if |xs| > 0 {
      assert xs[0] in xs;
      assert (xs + [x] + ys)[1..] == xs[1..] + [x] + ys;
      IndexOfAfter(xs[1..], x, ys);
    }
  }

  /** The last occurrence before a suffix that lacks the character. */
  lemma {:induction false} LastIndexOfBefore(a: string, c: char, b: string)
    requires c !in b
    ensures LastIndexOf(a + [c] + b, c) == |a|
    decreases |b|
  {
    var s := a + [c] + b;
    if |b| > 0 {
      assert b[|b| - 1] in b;
      assert s[..|s| - 1] == a + [c] + b[..|b| - 1];
      LastIndexOfBefore(a, c, b[..|b| - 1]);
    }
  }

  /** How `Array.prototype.slice` reads an index: negative counts from the end,
      and the result is clamped to `0..n`. */
  function SliceIndex(i: int, n: nat): (r: nat)
    ensures r <= n
    ensures 0 <= i <= n ==> r == i
    ensures i > n ==> r == n
    ensures i < 0 && n + i >= 0 ==> r == n + i
    ensures n + i < 0 ==> r == 0
  {
    if i < 0 then (if n + i < 0 then 0 else n + i)
    else if i > n then n
    else i
  }

  /** `xs.slice(start, end)`. */
  function JsSlice<T>(xs: seq<T>, start: int, end: int): (r: seq<T>)
    ensures |r| <= |xs|
    ensures var b, e := SliceIndex(start, |xs|), SliceIndex(end, |xs|);
      && |r| == (if b < e then e - b else 0)
      && forall k :: 0 <= k < |r| ==> r[k] == xs[b + k]
    ensures 0 <= start <= end ==> r == xs[SliceIndex(start, |xs|)..SliceIndex(end, |xs|)]
    ensures -|xs| <= start < 0 && end == |xs| ==> r == xs[|xs| + start..]
  {
    var b, e := SliceIndex(start, |xs|), SliceIndex(end, |xs|);
    if b < e then xs[b..e] else []
  }

  /** `Math.min(a, b)`. */
  function Min(a: int, b: int): (m: int)
    ensures m <= a && m <= b
    ensures m == a || m == b
  {
    if a <= b then a else b
  }

  /** `c.toLowerCase()` on the ASCII letters; every other character is kept. */
  function LowerChar(c: char): (d: char)
    ensures 'A' <= c <= 'Z' ==> 'a' <= d <= 'z' && d as int - c as int == 32
    ensures !('A' <= c <= 'Z') ==> d == c
  {
    if 'A' <= c <= 'Z' then (c as int + 32) as char else c
  }

  /** `s.toLowerCase()`, character by character. */
  function Lower(s: string): (r: string)
    ensures |r| == |s|
    ensures forall i :: 0 <= i < |s| ==> r[i] == LowerChar(s[i])
  {
    seq(|s|, i requires 0 <= i < |s| => LowerChar(s[i]))
  }
}

=== FILE: user_controller.dfy ===
/** The patient-facing handlers of controllers/userController.js that carry
    logic: registration checks, booking (reserve a slot and record the
    appointment) and the patient's own cancellation. */
module UserController {
  import opened Outcomes
  import opened SlotRegistry
  import opened ClinicModel

  const FILL_ALL_FIELDS := "Please fill all fields"
  const INVALID_EMAIL := "Enter valid email"
  const SHORT_PASSWORD := "Password should be at least 8 characters long."
  const EMAIL_EXISTS := "Email already exists"
  const MIN_PASSWORD_LENGTH := 8

  const DOCTOR_NOT_AVAILABLE := "Doctor is not available"
  const SLOT_ALREADY_BOOKED := "Slot is already booked"
  const NOT_AUTHORIZED_TO_CANCEL := "You are not authorized to cancel this appointment"

  ghost predicate EmailTaken(users: map<string, Patient>, email: string) {
    exists id :: id in users && users[id].email == email
  }

  /** No two accounts share an email address. */
  ghost predicate UniqueEmails(users: map<string, Patient>) {
    forall i, j :: i in users && j in users && i != j ==> users[i].email != users[j].email
  }

  /** registerUser, with `isEmail` the email validator and `newId` the id the
      store assigns. Hashing the password and issuing the token are not
      modelled: success yields the new account's id. */
  function RegisterUser(
    users: map<string, Patient>, name: string, email: string, password: string,
    isEmail: string -> bool, newId: string, defaultImage: string
  ): (t: Transition<string, map<string, Patient>>)
    ensures t.result.Err? ==> t.next == users
    ensures !Truthy(name) || !Truthy(email) || !Truthy(password) ==>
      t.result == Err(Rejected(200, FILL_ALL_FIELDS))
    ensures Truthy(name) && Truthy(email) && Truthy(password) && !isEmail(email) ==>
      t.result == Err(Rejected(200, INVALID_EMAIL))
    ensures Truthy(name) && Truthy(email) && isEmail(email) && 0 < |password| < MIN_PASSWORD_LENGTH ==>
      t.result == Err(Rejected(200, SHORT_PASSWORD))
    ensures Truthy(name) && Truthy(email) && isEmail(email) && |password| >= MIN_PASSWORD_LENGTH
            && EmailTaken(users, email) ==>
      t.result == Err(Rejected(200, EMAIL_EXISTS))
    ensures t.result.Ok? <==>
      && Truthy(name) && Truthy(email) && isEmail(email) && |password| >= MIN_PASSWORD_LENGTH
      && !EmailTaken(users, email) && newId !in users
    ensures t.result.Ok? ==>
      && t.result.value == newId
      && t.next == users[newId := Patient(name, email, defaultImage)]
  {
    if !Truthy(name) || !Truthy(email) || !Truthy(password) then
      Transition(Err(Rejected(200, FILL_ALL_FIELDS)), users)
    else if !isEmail(email) then
      Transition(Err(Rejected(200, INVALID_EMAIL)), users)
    else if |password| < MIN_PASSWORD_LENGTH then
      Transition(Err(Rejected(200, SHORT_PASSWORD)), users)
    else if exists id :: id in users && users[id].email == email then
      Transition(Err(Rejected(200, EMAIL_EXISTS)), users)
    else if newId in users then
      Transition(Err(Threw(500)), users)
    else
      Transition(Ok(newId), users[newId := Patient(name, email, defaultImage)])
  }

  /** Registration keeps email addresses unique. */
  lemma RegisterKeepsEmailsUnique(
    users: map<string, Patient>, name: string, email: string, password: string,
    isEmail: string -> bool, newId: string, defaultImage: string)
    requires UniqueEmails(users)
    ensures UniqueEmails(RegisterUser(users, name, email, password, isEmail, newId, defaultImage).next)
  {
    var t := RegisterUser(users, name, email, password, isEmail, newId, defaultImage);
    if t.result.Ok? {
      forall i, j | i in t.next && j in t.next && i != j
        ensures t.next[i].email != t.next[j].email
      {
        if i == newId {
          assert j in users && users[j].email != email;
        } else if j == newId {
          assert i in users && users[i].email != email;
        }
      }
    }
  }

  /** bookAppointment. `newId` is the id the store gives the new appointment,
      `now` is `Date.now()`, and `defaults` are the appointment schema's
      initial flags, which the handler does not set itself. The appointment
      is saved before the doctor's slots are written back, so a failed save
      (an id already in use) leaves both collections untouched. */
  function BookAppointment(
    c: Store, userId: string, docId: string, slotDate: string, slotTime: string,
    newId: string, now: int, defaults: Flags
  ): (t: Transition<(), Store>)
    ensures docId !in c.doctors ==> t == Transition(Err(Threw(500)), c)
    ensures docId in c.doctors && !c.doctors[docId].available ==>
      t == Transition(Err(Rejected(200, DOCTOR_NOT_AVAILABLE)), c)
    ensures (docId in c.doctors && c.doctors[docId].available
             && !IsSlotFree(c.doctors[docId].slotsBooked, slotDate, slotTime)) ==>
      t == Transition(Err(Rejected(200, SLOT_ALREADY_BOOKED)), c)
    ensures t.result.Err? ==> t.next == c
    ensures t.result.Ok? <==>
      && docId in c.doctors && c.doctors[docId].available
      && IsSlotFree(c.doctors[docId].slotsBooked, slotDate, slotTime)
      && newId !in c.appointments
    ensures t.result.Ok? ==> newId in t.next.appointments && docId in t.next.doctors
    ensures t.result.Ok? ==>
      var doc := c.doctors[docId];
      var a := t.next.appointments[newId];
      && a.userId == userId && a.docId == docId
      && a.slotDate == slotDate && a.slotTime == slotTime
      && a.amount == doc.fees && a.docData == Snapshot(doc)
      && a.userData == FindUser(c.users, userId)
      && a.date == now && a.flags == defaults
    ensures t.result.Ok? ==>
      && t.next.appointments.Keys == c.appointments.Keys + {newId}
      && (forall id :: id in c.appointments ==> t.next.appointments[id] == c.appointments[id])
      && t.next.users == c.users
      && t.next.doctors.Keys == c.doctors.Keys
      && (forall d :: d in c.doctors && d != docId ==> t.next.doctors[d] == c.doctors[d])
    ensures t.result.Ok? ==>
      var before := c.doctors[docId];
      var after := t.next.doctors[docId];
      && after == before.(slotsBooked := after.slotsBooked)
      && !IsSlotFree(after.slotsBooked, slotDate, slotTime)
      && after.slotsBooked.Keys == before.slotsBooked.Keys + {slotDate}
      && (forall d :: d in before.slotsBooked && d != slotDate ==>
            after.slotsBooked[d] == before.slotsBooked[d])
      && after.slotsBooked[slotDate] == TimesOn(before.slotsBooked, slotDate) + [slotTime]
  {
    if docId !in c.doctors then Transition(Err(Threw(500)), c)
    else
      var doc := c.doctors[docId];
      if !doc.available then Transition(Err(Rejected(200, DOCTOR_NOT_AVAILABLE)), c)
      else
        match Reserve(doc.slotsBooked, slotDate, slotTime)
        case None => Transition(Err(Rejected(200, SLOT_ALREADY_BOOKED)), c)
        case Some(slots) =>
          if newId in c.appointments then Transition(Err(Threw(500)), c)
          else
            var a := Appointment(userId, docId, FindUser(c.users, userId), Snapshot(doc),
                                 doc.fees, slotDate, slotTime, now, defaults);
            Transition(Ok(()), c.(appointments := c.appointments[newId := a],
                                  doctors := c.doctors[docId := doc.(slotsBooked := slots)]))
  }

  /** cancelAppointment. A missing appointment makes the handler read a field
      of `null` (a caught exception); a caller other than the appointment's
      patient is refused before anything is written. */
  function CancelAppointment(c: Store, userId: string, appointmentId: string): (t: Transition<(), Store>)
    ensures appointmentId !in c.appointments ==> t == Transition(Err(Threw(200)), c)
    ensures appointmentId in c.appointments && c.appointments[appointmentId].userId != userId ==>
      t == Transition(Err(Rejected(200, NOT_AUTHORIZED_TO_CANCEL)), c)
    ensures appointmentId in c.appointments && c.appointments[appointmentId].userId == userId ==>
      appointmentId in t.next.appointments && t.next.appointments[appointmentId].flags.cancel
    ensures t.result.Ok? <==>
      && appointmentId in c.appointments
      && var a := c.appointments[appointmentId];
      && a.userId == userId && a.docId in c.doctors && a.slotDate in c.doctors[a.docId].slotsBooked
    ensures t.result.Ok? ==>
      var a := c.appointments[appointmentId];
      a.docId in t.next.doctors && IsSlotFree(t.next.doctors[a.docId].slotsBooked, a.slotDate, a.slotTime)
    ensures appointmentId in c.appointments && c.appointments[appointmentId].userId == userId ==>
      t == CancelAndRelease(c, appointmentId)
  {
    if appointmentId !in c.appointments then Transition(Err(Threw(200)), c)
    else if c.appointments[appointmentId].userId != userId then
      Transition(Err(Rejected(200, NOT_AUTHORIZED_TO_CANCEL)), c)
    else CancelAndRelease(c, appointmentId)
  }
}

=== FILE: user_route.dfy ===
/** The medical-record routes of routes/userRoute.js: how an uploaded file's
    name picks the storage resource type, how a stored URL is turned back
    into the storage public id, and the owner-checked upload, delete and
    rename of record entries. Storage upload and destroy are inputs. */
module UserRoute {
  import opened Outcomes
  import opened Text

  const EMPTY_FILE := "Empty file uploaded"
  const RECORD_NOT_FOUND := "Record not found"
  const UNAUTHORIZED := "Unauthorized"
  const FILENAME_REQUIRED := "Filename required"
  const RECORDS_FOLDER := "medical-records"

  const IMAGE_EXTS: seq<string> := [".jpg", ".jpeg", ".png", ".svg", ".gif", ".webp"]
  const RAW_EXTS: seq<string> := [".pdf", ".docx", ".doc", ".txt", ".zip"]

  datatype ResourceType = Image | Raw | Auto

  /** The path without its trailing '/' characters. */
  function TrimTrailingSlashes(p: string): (r: string)
    ensures |r| <= |p| && p[..|r|] == r
    ensures r == "" || r[|r| - 1] != '/'
    ensures forall i :: |r| <= i < |p| ==> p[i] == '/'
    decreases |p|
  {
    if |p| == 0 || p[|p| - 1] != '/' then p else TrimTrailingSlashes(p[..|p| - 1])
  }

  /** The last path component, ignoring trailing '/' characters. */
  function BaseName(p: string): (b: string)
    ensures '/' !in b
  {
    AfterLastSlash(TrimTrailingSlashes(p))
  }

  /** What follows the last '/', or the whole string when there is none. */
  function AfterLastSlash(t: string): (b: string)
    ensures '/' !in b
    ensures |b| <= |t| && t[|t| - |b|..] == b
  {
    t[LastIndexOf(t, '/') + 1..]
  }

  /** `path.extname` (POSIX): from the last '.' of the last component to its
      end, or "" when the component has no '.', starts with its only '.'
      (a dot-file such as ".png"), or is exactly "..". */
  function ExtName(p: string): (e: string)
    ensures e == "" || (e[0] == '.' && '.' !in e[1..] && '/' !in e)
    ensures e != "" ==> |e| < |BaseName(p)| && BaseName(p)[|BaseName(p)| - |e|..] == e
    ensures e == "" <==> NoExtension(BaseName(p))
  {
    ExtOfBase(BaseName(p))
  }

  /** A path component without an extension: it has no '.', its only '.'
      is its first character, or it is "..". */
  predicate NoExtension(b: string) {
    || '.' !in b
    || (b[0] == '.' && '.' !in b[1..])
    || b == ".."
  }

  /** The extension of one path component. */
  function ExtOfBase(b: string): (e: string)
    requires '/' !in b
    ensures e == "" || (e[0] == '.' && '.' !in e[1..] && '/' !in e)
    ensures e != "" ==> |e| < |b| && b[|b| - |e|..] == e
    ensures e == "" <==> NoExtension(b)
  {
    var d := LastIndexOf(b, '.');
    LastDotAtStart(b);
    if d <= 0 || b == ".." then "" else b[d..]
  }

  /** The last '.' is the first character exactly when it is the only one there. */
  lemma LastDotAtStart(b: string)
    ensures LastIndexOf(b, '.') == 0 <==> |b| > 0 && b[0] == '.' && '.' !in b[1..]
  {
  }

  /** The extension of `stem.x`, alone or under any directory, is `.x`. */
  lemma ExtNameOfFile(dir: string, stem: string, x: string)
    requires stem != "" && x != ""
    requires '/' !in stem && '/' !in x && '.' !in x
    ensures ExtName(stem + "." + x) == "." + x
    ensures ExtName(dir + "/" + (stem + "." + x)) == "." + x
  {
    var b := stem + "." + x;
    StemDotExt(stem, x);
    BaseNameWithoutSlash(b);
    assert ExtName(b) == ExtOfBase(BaseName(b));
    BaseNameUnderDir(dir, b);
    assert ExtName(dir + "/" + b) == ExtOfBase(BaseName(dir + "/" + b));
  }

  /** A '.' followed by lower-case ASCII letters, as every listed extension is. */
  predicate DotWord(ext: string) {
    |ext| >= 2 && ext[0] == '.' && forall i :: 1 <= i < |ext| ==> 'a' <= ext[i] <= 'z'
  }

  lemma ListedExtensionsAreDotWords()
    ensures forall j :: 0 <= j < |IMAGE_EXTS| ==> DotWord(IMAGE_EXTS[j])
    ensures forall j :: 0 <= j < |RAW_EXTS| ==> DotWord(RAW_EXTS[j])
  {
  }

  /** A dot-word is its own lower-case form and is a well-formed extension. */
  lemma DotWordShape(ext: string)
    requires DotWord(ext)
    ensures Lower(ext) == ext
    ensures ext == "." + ext[1..] && ext[1..] != "" && '/' !in ext[1..] && '.' !in ext[1..]
  {
    var x := ext[1..];
    forall i | 0 <= i < |x| ensures 'a' <= x[i] <= 'z' {
      assert x[i] == ext[i + 1];
    }
  }

  /** A file named `stem` plus a listed extension, alone or under any
      directory, is classified by that extension: an image extension gives
      Image and a document extension gives Raw. */
  lemma ResourceTypeOfListedFile(dir: string, stem: string, ext: string)
    requires stem != "" && '/' !in stem
    requires ext in IMAGE_EXTS || ext in RAW_EXTS
    ensures GetResourceType(stem + ext) == (if ext in IMAGE_EXTS then Image else Raw)
    ensures GetResourceType(dir + "/" + (stem + ext)) == (if ext in IMAGE_EXTS then Image else Raw)
  {
    ListedExtensionsAreDotWords();
    DotWordShape(ext);
    var x := ext[1..];
    assert stem + ext == stem + "." + x;
    ExtNameOfFile(dir, stem, x);
    ExtensionListsDisjoint(ext);
  }

  /** The component `stem.x` has the extension `.x`. */
  lemma StemDotExt(stem: string, x: string)
    requires stem != "" && x != ""
    requires '/' !in stem && '/' !in x && '.' !in x
    ensures '/' !in stem + "." + x && (stem + "." + x)[|stem + "." + x| - 1] != '/'
    ensures ExtOfBase(stem + "." + x) == "." + x
  {
    var b := stem + "." + x;
    assert b == stem + ['.'] + x;
    assert b[|b| - 1] == x[|x| - 1];
    LastIndexOfBefore(stem, '.', x);
    ExtOfStem(b, stem, x);
  }

  /** Under a directory, the last component is what follows the last '/'. */
  lemma BaseNameUnderDir(dir: string, b: string)
    requires '/' !in b && b != "" && b[|b| - 1] != '/'
    ensures BaseName(dir + "/" + b) == b
  {
    var p := dir + "/" + b;
    assert p == dir + ['/'] + b;
    assert p[|p| - 1] == b[|b| - 1];
    assert TrimTrailingSlashes(p) == p;
    LastIndexOfBefore(dir, '/', b);
    assert p[|dir| + 1..] == b;
  }

  lemma ExtOfStem(b: string, stem: string, x: string)
    requires b == stem + ['.'] + x && stem != "" && '/' !in b && |b| > 2
    requires LastIndexOf(b, '.') == |stem|
    ensures ExtOfBase(b) == "." + x
  {
    assert b[|stem|..] == "." + x;
  }

  lemma BaseNameWithoutSlash(b: string)
    requires '/' !in b && b != "" && b[|b| - 1] != '/'
    ensures BaseName(b) == b
  {
    assert TrimTrailingSlashes(b) == b;
    assert AfterLastSlash(b) == b[0..] == b;
  }

  /** The resource type of a lower-cased extension: the image list is
      consulted first, then the document list. */
  function Classify(ext: string): (r: ResourceType)
    ensures r == Image <==> ext in IMAGE_EXTS
    ensures r == Raw <==> ext !in IMAGE_EXTS && ext in RAW_EXTS
    ensures r == Auto <==> ext !in IMAGE_EXTS && ext !in RAW_EXTS
  {
    if ext in IMAGE_EXTS then Image
    else if ext in RAW_EXTS then Raw
    else Auto
  }

  /** getResourceType: the lower-cased extension picks the type. */
  function GetResourceType(filename: string): (r: ResourceType)
    ensures r == Image <==> Lower(ExtName(filename)) in IMAGE_EXTS
    ensures r == Raw <==> Lower(ExtName(filename)) !in IMAGE_EXTS && Lower(ExtName(filename)) in RAW_EXTS
    ensures r == Auto <==> Lower(ExtName(filename)) !in IMAGE_EXTS && Lower(ExtName(filename)) !in RAW_EXTS
  {
    Classify(Lower(ExtName(filename)))
  }

  /** The two extension lists share no entry, so the order of the two
      checks does not matter: a document extension always gives Raw. */
  lemma ExtensionListsDisjoint(ext: string)
    ensures forall i, j :: 0 <= i < |IMAGE_EXTS| && 0 <= j < |RAW_EXTS| ==> IMAGE_EXTS[i] != RAW_EXTS[j]
    ensures ext in RAW_EXTS ==> Classify(ext) == Raw
  {
    forall i, j | 0 <= i < |IMAGE_EXTS| && 0 <= j < |RAW_EXTS|
      ensures IMAGE_EXTS[i] != RAW_EXTS[j]
    {
      assert IMAGE_EXTS[i][1] != RAW_EXTS[j][1] || IMAGE_EXTS[i][2] != RAW_EXTS[j][2];
    }
    if ext in RAW_EXTS {
      var j :| 0 <= j < |RAW_EXTS| && RAW_EXTS[j] == ext;
      assert forall i :: 0 <= i < |IMAGE_EXTS| ==> IMAGE_EXTS[i] != ext;
    }
  }

  lemma {:induction false} LowerKeepsSeparators(c: char)
    ensures LowerChar(c) == '/' <==> c == '/'
    ensures LowerChar(c) == '.' <==> c == '.'
  {
  }

  lemma {:induction false} LowerSlice(s: string, i: int, j: int)
    requires 0 <= i <= j <= |s|
    ensures Lower(s)[i..j] == Lower(s[i..j])
  {
  }

  lemma {:induction false} TrimCommutesWithLower(p: string)
    ensures TrimTrailingSlashes(Lower(p)) == Lower(TrimTrailingSlashes(p))
    decreases |p|
  {
    if |p| > 0 {
      LowerKeepsSeparators(p[|p| - 1]);
      if p[|p| - 1] == '/' {
        LowerSlice(p, 0, |p| - 1);
        TrimCommutesWithLower(p[..|p| - 1]);
      }
    }
  }

  lemma {:induction false} LastIndexOfIgnoresCase(s: string, c: char)
    requires c == '/' || c == '.'
    ensures LastIndexOf(Lower(s), c) == LastIndexOf(s, c)
    decreases |s|
  {
    if |s| > 0 {
      LowerKeepsSeparators(s[|s| - 1]);
      LowerSlice(s, 0, |s| - 1);
      LastIndexOfIgnoresCase(s[..|s| - 1], c);
    }
  }

  lemma BaseNameCommutesWithLower(p: string)
    ensures BaseName(Lower(p)) == Lower(BaseName(p))
  {
    TrimCommutesWithLower(p);
    AfterLastSlashCommutesWithLower(TrimTrailingSlashes(p));
  }

  lemma AfterLastSlashCommutesWithLower(t: string)
    ensures AfterLastSlash(Lower(t)) == Lower(AfterLastSlash(t))
  {
    var k := LastIndexOf(t, '/');
    var lt := Lower(t);
    LastIndexOfIgnoresCase(t, '/');
    assert LastIndexOf(lt, '/') == k;
    assert AfterLastSlash(t) == t[k + 1..];
    assert AfterLastSlash(lt) == lt[k + 1..];
    LowerSuffix(t, k + 1);
  }

  lemma DotDotIgnoresCase(b: string)
    ensures Lower(b) == ".." <==> b == ".."
  {
    if |b| == 2 {
      LowerKeepsSeparators(b[0]);
      LowerKeepsSeparators(b[1]);
    }
  }

  /** Lower-casing a file name lower-cases its extension and nothing else about it. */
  lemma ExtNameCommutesWithLower(p: string)
    ensures ExtName(Lower(p)) == Lower(ExtName(p))
  {
    BaseNameCommutesWithLower(p);
    ExtNameOfLowerBase(BaseName(p));
  }

  lemma ExtNameOfLowerBase(b: string)
    requires '/' !in b
    ensures '/' !in Lower(b)
    ensures ExtOfBase(Lower(b)) == Lower(ExtOfBase(b))
  {
    LowerKeepsNoSlash(b);
    var lb := Lower(b);
    var d := LastIndexOf(b, '.');
    LastIndexOfIgnoresCase(b, '.');
    assert LastIndexOf(lb, '.') == d;
    DotDotIgnoresCase(b);
    if d > 0 && b != ".." {
      assert ExtOfBase(b) == b[d..];
      assert ExtOfBase(lb) == lb[d..];
      LowerSuffix(b, d);
    } else {
      assert ExtOfBase(b) == "";
      assert ExtOfBase(lb) == "";
      assert Lower("") == "";
    }
  }

  lemma LowerKeepsNoSlash(b: string)
    requires '/' !in b
    ensures '/' !in Lower(b)
  {
    var lb := Lower(b);
    forall i | 0 <= i < |lb| ensures lb[i] != '/' {
      LowerKeepsSeparators(b[i]);
    }
  }

  lemma LowerSuffix(s: string, d: int)
    requires 0 <= d <= |s|
    ensures Lower(s)[d..] == Lower(s[d..])
  {
    LowerSlice(s, d, |s|);
    assert Lower(s)[d..] == Lower(s)[d..|s|];
    assert s[d..] == s[d..|s|];
  }

  /** The classification ignores the case of the whole file name. */
  lemma ResourceTypeIgnoresCase(filename: string)
    ensures GetResourceType(Lower(filename)) == GetResourceType(filename)
  {
    var e := ExtName(filename);
    ExtNameCommutesWithLower(filename);
    LowerIdempotent(e);
    assert Lower(ExtName(Lower(filename))) == Lower(e);
  }

  lemma LowerIdempotent(s: string)
    ensures Lower(Lower(s)) == Lower(s)
  {
    var l := Lower(s);
    forall i | 0 <= i < |s| ensures Lower(l)[i] == l[i] {
      assert l[i] == LowerChar(s[i]);
    }
  }

  /** `s.replace(/\.[^.]+$/, '')`: drop the last '.' and what follows it,
      provided something follows it. */
  function StripExtension(s: string): (r: string)
    ensures |r| <= |s| && s[..|r|] == r
    ensures r != s ==> |r| + 1 < |s| && s[|r|] == '.' && '.' !in s[|r| + 1..]
    ensures r == s ==> '.' !in s || s[|s| - 1] == '.'
  {
    var d := LastIndexOf(s, '.');
    if d == -1 || d == |s| - 1 then s else s[..d]
  }

  /** The public id the delete route derives from a stored URL: the URL's
      '/'-separated segments from the first "medical-records" segment on,
      without the extension. Without such a segment `indexOf` gives -1 and
      `slice(-1)` keeps only the last segment. */
  function PublicId(url: string): (id: string)
    ensures var parts := Split(url, '/');
      && (RECORDS_FOLDER in parts ==>
            id == StripExtension(Join(parts[IndexOf(parts, RECORDS_FOLDER)..], '/')))
      && (RECORDS_FOLDER !in parts ==> id == StripExtension(parts[|parts| - 1]))
  {
    var parts := Split(url, '/');
    var k := IndexOf(parts, RECORDS_FOLDER);
    var kept := JsSlice(parts, k, |parts|);
    assert k >= 0 ==> kept == parts[k..];
    assert k == -1 ==> kept == parts[|parts| - 1..] && Join(kept, '/') == parts[|parts| - 1];
    StripExtension(Join(kept, '/'))
  }

  lemma {:induction false} JoinAppend(parts: seq<string>, last: string)
    requires |parts| >= 1
    ensures Join(parts + [last], '/') == Join(parts, '/') + "/" + last
    decreases |parts|
  {
    if |parts| > 1 {
      JoinAppend(parts[1..], last);
      assert (parts + [last])[1..] == parts[1..] + [last];
    }
  }

  /** Stripping the extension of `stem.ext` gives back `stem`. */
  lemma StripExtensionOf(stem: string, ext: string)
    requires ext != "" && '.' !in ext
    ensures StripExtension(stem + "." + ext) == stem
  {
    LastIndexOfBefore(stem, '.', ext);
    assert stem + "." + ext == stem + ['.'] + ext;
    assert (stem + ['.'] + ext)[..|stem|] == stem;
  }

  /** The id kept from the URL `host/medical-records/file`. */
  lemma {:induction false} KeptSegments(host: seq<string>, file: string)
    requires forall i :: 0 <= i < |host| ==> '/' !in host[i]
    requires RECORDS_FOLDER !in host && '/' !in file
    ensures PublicId(Join(host + [RECORDS_FOLDER, file], '/')) == StripExtension(RECORDS_FOLDER + "/" + file)
  {
    var parts := host + [RECORDS_FOLDER, file];
    forall i | 0 <= i < |parts| ensures '/' !in parts[i] {
      if i < |host| { assert parts[i] == host[i]; }
    }
    SplitJoin(parts, '/');
    assert parts == host + [RECORDS_FOLDER] + [file];
    IndexOfAfter(host, RECORDS_FOLDER, [file]);
    assert parts[|host|..] == [RECORDS_FOLDER] + [file];
    JoinAppend([RECORDS_FOLDER], file);
  }

  /** For a URL made of host segments, the "medical-records" folder and a
      file named `name.ext`, the public id is the folder and the bare name. */
  lemma PublicIdOfStoredFile(host: seq<string>, name: string, ext: string)
    requires forall i :: 0 <= i < |host| ==> '/' !in host[i]
    requires RECORDS_FOLDER !in host
    requires '/' !in name && ext != "" && '/' !in ext && '.' !in ext
    ensures PublicId(Join(host + [RECORDS_FOLDER, name + "." + ext], '/')) == RECORDS_FOLDER + "/" + name
  {
    var file := name + "." + ext;
    NoSlashInFileName(name, ext);
    KeptSegments(host, file);
    StripExtensionUnderFolder(RECORDS_FOLDER, name, ext);
  }

  lemma StripExtensionUnderFolder(folder: string, name: string, ext: string)
    requires ext != "" && '.' !in ext
    ensures StripExtension(folder + "/" + (name + "." + ext)) == folder + "/" + name
  {
    var stem := folder + "/" + name;
    ConcatAssoc(folder + "/", name + ".", ext);
    ConcatAssoc(folder + "/", name, ".");
    StripExtensionOf(stem, ext);
  }

  lemma ConcatAssoc(a: string, b: string, c: string)
    ensures a + (b + c) == (a + b) + c
  {
  }

  lemma NoSlashInFileName(name: string, ext: string)
    requires '/' !in name && '/' !in ext
    ensures '/' !in name + "." + ext
  {
    assert name + "." + ext == name + ['.'] + ext;
  }

  datatype MedicalRecord = MedicalRecord(userId: string, filename: string, url: string)

  /** The multipart upload: its original name and its size in bytes. */
  datatype UploadedFile = UploadedFile(originalName: string, size: nat)

  /** The upload route: an absent or empty file is refused; otherwise the file
      goes to storage with the resource type its name picks, and a record
      owned by the caller, with the original name and the URL storage
      returns, is created. */
  function UploadMedicalRecord(
    records: map<string, MedicalRecord>, userId: string, file: Option<UploadedFile>,
    upload: ResourceType -> Upstream<string>, newId: string
  ): (t: Transition<MedicalRecord, map<string, MedicalRecord>>)
    ensures file.None? || file.value.size == 0 ==> t == Transition(Err(Rejected(400, EMPTY_FILE)), records)
    ensures t.result.Err? ==> t.next == records
    ensures t.result.Ok? <==>
      && file.Some? && file.value.size > 0
      && upload(GetResourceType(file.value.originalName)).Replied?
      && newId !in records
    ensures t.result.Ok? ==>
      && t.next == records[newId := t.result.value]
      && t.result.value.userId == userId
      && t.result.value.filename == file.value.originalName
      && t.result.value.url == upload(GetResourceType(file.value.originalName)).body
  {
    if file.None? || file.value.size == 0 then Transition(Err(Rejected(400, EMPTY_FILE)), records)
    else match upload(GetResourceType(file.value.originalName))
      case Failed => Transition(Err(Threw(500)), records)
      case Replied(url) =>
        if newId in records then Transition(Err(Threw(500)), records)
        else
          var r := MedicalRecord(userId, file.value.originalName, url);
          Transition(Ok(r), records[newId := r])
  }

  /** The delete route: 404 for a missing record, 403 for someone else's,
      then the storage object named by the URL's public id is destroyed and
      the record removed. Success yields the public id that was destroyed.
      The destroy call always names the raw resource type, whatever type the
      upload picked for the file. */
  function DeleteMedicalRecord(
    records: map<string, MedicalRecord>, userId: string, recordId: string,
    destroy: (string, ResourceType) -> Upstream<()>
  ): (t: Transition<string, map<string, MedicalRecord>>)
    ensures recordId !in records ==> t == Transition(Err(Rejected(404, RECORD_NOT_FOUND)), records)
    ensures recordId in records && records[recordId].userId != userId ==>
      t == Transition(Err(Rejected(403, UNAUTHORIZED)), records)
    ensures t.result.Err? ==> t.next == records
    ensures t.result.Ok? <==>
      recordId in records && records[recordId].userId == userId
      && destroy(PublicId(records[recordId].url), Raw).Replied?
    ensures t.result.Ok? ==>
      && t.result.value == PublicId(records[recordId].url)
      && t.next.Keys == records.Keys - {recordId}
      && forall id :: id in t.next ==> t.next[id] == records[id]
  {
    if recordId !in records then Transition(Err(Rejected(404, RECORD_NOT_FOUND)), records)
    else
      var r := records[recordId];
      if r.userId != userId then Transition(Err(Rejected(403, UNAUTHORIZED)), records)
      else
        var publicId := PublicId(r.url);
        match destroy(publicId, Raw)
        case Failed => Transition(Err(Threw(500)), records)
        case Replied(_) => Transition(Ok(publicId), records - {recordId})
  }

  /** The rename route: an empty name is refused before the record is read;
      then 404 and 403 as for delete; otherwise only `filename` changes. */
  function RenameMedicalRecord(
    records: map<string, MedicalRecord>, userId: string, recordId: string, filename: string
  ): (t: Transition<MedicalRecord, map<string, MedicalRecord>>)
    ensures !Truthy(filename) ==> t == Transition(Err(Rejected(400, FILENAME_REQUIRED)), records)
    ensures Truthy(filename) && recordId !in records ==>
      t == Transition(Err(Rejected(404, RECORD_NOT_FOUND)), records)
    ensures Truthy(filename) && recordId in records && records[recordId].userId != userId ==>
      t == Transition(Err(Rejected(403, UNAUTHORIZED)), records)
    ensures t.result.Ok? <==> Truthy(filename) && recordId in records && records[recordId].userId == userId
    ensures t.result.Ok? ==>
      && t.next == records[recordId := t.result.value]
      && t.result.value.filename == filename
      && t.result.value.userId == records[recordId].userId
      && t.result.value.url == records[recordId].url
  {
    if !Truthy(filename) then Transition(Err(Rejected(400, FILENAME_REQUIRED)), records)
    else if recordId !in records then Transition(Err(Rejected(404, RECORD_NOT_FOUND)), records)
    else
      var r := records[recordId];
      if r.userId != userId then Transition(Err(Rejected(403, UNAUTHORIZED)), records)
      else
        var r' := r.(filename := filename);
        Transition(Ok(r'), records[recordId := r'])
  }

  /** A record uploaded and then deleted by its owner leaves the records as
      they were, provided storage destroys the object under the URL's id. */
  lemma UploadThenDeleteRestores(
    records: map<string, MedicalRecord>, userId: string, file: UploadedFile,
    upload: ResourceType -> Upstream<string>, newId: string, destroy: (string, ResourceType) -> Upstream<()>)
    ensures var up := UploadMedicalRecord(records, userId, Some(file), upload, newId);
      var del := DeleteMedicalRecord(up.next, userId, newId, destroy);
      up.result.Ok? ==>
        && (del.result.Ok? <==> destroy(PublicId(up.result.value.url), Raw).Replied?)
        && (del.result.Ok? ==> del.next == records)
  {
    var up := UploadMedicalRecord(records, userId, Some(file), upload, newId);
    if up.result.Ok? {
      DeleteFresh(records, newId, up.result.value, userId, destroy);
    }
  }

  lemma DeleteFresh(records: map<string, MedicalRecord>, newId: string, r: MedicalRecord, userId: string,
                    destroy: (string, ResourceType) -> Upstream<()>)
    requires newId !in records && r.userId == userId
    ensures var del := DeleteMedicalRecord(records[newId := r], userId, newId, destroy);
      && (del.result.Ok? <==> destroy(PublicId(r.url), Raw).Replied?)
      && (del.result.Ok? ==> del.next == records)
  {
    var m := records[newId := r];
    assert newId in m && m[newId] == r;
    assert m - {newId} == records;
  }

  /** Renaming twice to the same name changes nothing the second time. */
  lemma RenameIdempotent(records: map<string, MedicalRecord>, userId: string, recordId: string, filename: string)
    ensures var once := RenameMedicalRecord(records, userId, recordId, filename);
      once.result.Ok? ==> RenameMedicalRecord(once.next, userId, recordId, filename) == once
  {
    var once := RenameMedicalRecord(records, userId, recordId, filename);
    if once.result.Ok? {
      assert once.next[recordId := once.result.value] == once.next;
    }
  }
}
